=== FILE: README.md ===
# libclamma demo and front ends, modelled in Dafny

libclamma is a small C inference library for llama2-style models. This
project models the parts of the repository that are deterministic logic,
not inference:

- **The web demo's token ring** (`clamma_genpipe_t`). Generated text reaches the
  event loop through a pipe. `clamma_genpipe_rx` copies each chunk into a
  2048-byte ring at `head`. An end-of-sequence token (`TOK_EOS`, 2) is stored as a
  space and marks the end of the message. `clamma_srv_tx` drains the ring from
  `tail` into HTTP body chunks and sets the start- and end-of-message flags. The
  ring is an immutable record (`GenPipe.Ring`). Its queued bytes are
  `Contents(g)`: the slots `(tail + k) % 2048` for `k < pending`. A run of rx and
  tx events is `Pipeline.Play`.
- **The demo server's connection transitions**: the SERVER_TXN and DISCONNECTED
  branches of `clamma_srv_state`. They are modelled as `ClammaSrv.ServerTxn` and
  `ClammaSrv.Disconnected`. Calls into the framework and the library become
  `Action`s the transition asks for. Which setup call fails, if any, is an input.
- **The command-line parsers** of `clamma-gen`, `clamma-gen-multi` and `clamma-chat`
  (`Options`), and what each program starts with the result (`Apps`).
- **The demo page script** (`DemoPage`): the first-line split of `handle`, the
  title's newline rewrite, and the three `readystatechange` handlers.

Modules: `Common` (optional values, bytes, decimal text), `RingMath` (index
arithmetic modulo 2048), `GenPipe`, `ClammaSrv`, `Pipeline`, `Query`, `Options`,
`Apps`, `DemoPage`.

The main results:

- `Pipeline.Fifo` and `Pipeline.FreshFifo` relate output to input. Over any
  sequence of rx chunks and tx windows, the bytes sent followed by the bytes
  still queued equal the bytes accepted, in order. `total` counts the bytes sent.
- That holds provided the ring never has to hold 2048 bytes at once.
  `GenPipe.RxOverrun` shows what happens otherwise: at exactly 2048 the ring
  looks empty.
- `Options.ParseValues` shows that the forward parser agrees with a backward
  "last pair wins" reading of the command line. `Options.Parse` gives the
  usage-error condition as an if-and-only-if.

Two behaviours of the page script are easy to miss, and the model keeps both:

- After the first-line split, the remainder keeps the newline at its head
  (`curr.substring(s[0].length)`, assets/clamma-ws-demo.js:9).
- A handler rewrites its region on every `readystatechange`, whatever the
  status. The status only decides the log entry (assets/clamma-ws-demo.js:19-51).

## Model

| member | source | states |
|---|---|---|
| `Common.Decimal` | standalone-apps/clamma-gen-multi/clamma-gen-multi.c:111 | `%d` of a non-negative number is a non-empty run of digits with no leading zero |
| `Common.DecimalRoundTrip` | standalone-apps/clamma-gen-multi/clamma-gen-multi.c:111 | reading the printed digits back gives the number |
| `Common.DecimalInjective` | standalone-apps/clamma-gen-multi/clamma-gen-multi.c:111 | different numbers print differently |
| `GenPipe.Fresh` | standalone-apps/clamma-ws-demo/ss-clamma-srv.c:188-197 | a newly created pipe stream's ring is consistent, holds nothing, has sent nothing and has the client attached |
| `GenPipe.Distance` | standalone-apps/clamma-ws-demo/ss-genpipe.c:41 | `(head - tail) % sizeof(payload)`, computed with `size_t` wrap-around, equals the remainder modulo 2048 |
| `GenPipe.Accept` | standalone-apps/clamma-ws-demo/ss-genpipe.c:30-39 | the bytes queued from a chunk: all of it when there is no EOS; otherwise the prefix before the first EOS followed by one space, with nothing after it |
| `GenPipe.Absorb` | standalone-apps/clamma-ws-demo/ss-genpipe.c:30-39 | the copy loop changes no index but `head`, and sets `eom_when_empty` exactly when the chunk holds an EOS |
| `GenPipe.AbsorbHead` | standalone-apps/clamma-ws-demo/ss-genpipe.c:30-39 | `head` advances by the number of bytes queued, modulo 2048 |
| `GenPipe.AbsorbWrites` | standalone-apps/clamma-ws-demo/ss-genpipe.c:30-39 | queued byte `j` lands at `(head + j) % 2048`, and no slot beyond the written stretch changes |
| `GenPipe.Rx` | standalone-apps/clamma-ws-demo/ss-genpipe.c:24-48 | rx keeps `tail`, `total`, the client and the session, re-establishes `pending == (head - tail) % 2048`, and asks for tx exactly when `pending > 0` and a client is attached, for `pending` bytes |
| `GenPipe.RxAppends` | standalone-apps/clamma-ws-demo/ss-genpipe.c:30-41 | below capacity, rx appends exactly the accepted bytes behind the queued ones and grows `pending` by their number |
| `GenPipe.WriteAppends` | standalone-apps/clamma-ws-demo/ss-genpipe.c:30-41 | a ring whose head moved past a written stretch, below capacity, queues that stretch behind its old contents |
| `GenPipe.KeptSlot` | standalone-apps/clamma-ws-demo/ss-genpipe.c:30-39 | writing the chunk never overwrites a byte that is still queued |
| `GenPipe.NewSlot` | standalone-apps/clamma-ws-demo/ss-genpipe.c:30-39 | byte `j` of the chunk lands `pending + j` slots after `tail` |
| `GenPipe.RxOverrun` | standalone-apps/clamma-ws-demo/ss-genpipe.c:30-47 | with no overrun guard, filling the ring to exactly 2048 bytes leaves `pending == 0` and no tx request |
| `ClammaSrv.Copy` | standalone-apps/clamma-ws-demo/ss-clamma-srv.c:95-105 | both `memcpy` branches copy the oldest `n` queued bytes, across the wrap, and move `tail` to `(tail + n) % 2048` |
| `ClammaSrv.WrappedCopy` | standalone-apps/clamma-ws-demo/ss-clamma-srv.c:96-100 | the split copy (end of the array, then its start) yields the oldest `n` queued bytes |
| `ClammaSrv.StraightCopy` | standalone-apps/clamma-ws-demo/ss-clamma-srv.c:101-104 | the single copy yields the oldest `n` queued bytes when they do not run past the end of the array |
| `ClammaSrv.Drained` | standalone-apps/clamma-ws-demo/ss-clamma-srv.c:100-109 | after a send of `n` bytes the ring is consistent, `pending` drops by `n`, `total` grows by `n`, and the first `n` bytes are gone from its contents |
| `ClammaSrv.DrainContents` | standalone-apps/clamma-ws-demo/ss-clamma-srv.c:100-109 | moving `tail` on by `n` removes exactly the first `n` queued bytes |
| `ClammaSrv.RingTx` | standalone-apps/clamma-ws-demo/ss-clamma-srv.c:85-116 | an empty ring sends nothing and changes nothing; otherwise it sends the oldest `min(window, pending)` bytes, keeps the rest queued, sets SOM iff `total` was 0, adds the count to `total`, and either asks for the rest or sets EOM iff `eom_when_empty` |
| `ClammaSrv.ConnTx` | standalone-apps/clamma-ws-demo/ss-clamma-srv.c:77-89 | a connection without a ring sends the description cut to the window as one whole message and touches no ring; a connection with one drains it |
| `ClammaSrv.ServerTxn` | standalone-apps/clamma-ws-demo/ss-clamma-srv.c:159-230 | a missing path disconnects; `/clamma/desc` is acked and answered with the description; any other path proceeds iff every setup call succeeds, the ring stays attached once created, and the pipe is closed on each failure after `pipe()` |
| `ClammaSrv.Disconnected` | standalone-apps/clamma-ws-demo/ss-clamma-srv.c:232-246 | a connection with a ring schedules its teardown, cancels the query iff a session was ever set, and detaches the client |
| `ClammaSrv.CancelAfterFailedQuery` | standalone-apps/clamma-ws-demo/ss-clamma-srv.c:209-253 | after a failed query the session is destroyed but stays in the ring, and the disconnect that follows asks to cancel a query on it |
| `Pipeline.Step` | standalone-apps/clamma-ws-demo/private.h:20-23 | every rx or tx keeps the ring consistent: indices inside 2048 and `pending == (head - tail) % 2048` |
| `Pipeline.Play` | standalone-apps/clamma-ws-demo/private.h:20-23 | any run of rx and tx events keeps the ring consistent |
| `Pipeline.StepFifo` | standalone-apps/clamma-ws-demo/ss-clamma-srv.c:95-109 | one event moves bytes from the ring's front to the output or feeds its back, and `total` grows by what is sent |
| `Pipeline.WindowFifo` | standalone-apps/clamma-ws-demo/ss-clamma-srv.c:85-109 | a tx step sends a prefix of the queued bytes and keeps the rest, adding the count sent to `total` |
| `Pipeline.Fifo` | standalone-apps/clamma-ws-demo/private.h:18-29 | bytes queued plus bytes fed equal bytes sent plus bytes still queued, in order, and `total` grows by the bytes sent |
| `Pipeline.FreshFifo` | standalone-apps/clamma-ws-demo/private.h:18-29 | from a fresh ring, the bytes sent followed by those still queued are exactly the accepted bytes, and `total` is the count sent |
| `Pipeline.SomMarksFirstFrame` | standalone-apps/clamma-ws-demo/ss-clamma-srv.c:91-93 | a frame carries SOM exactly when no byte was sent before it |
| `Pipeline.EomFlagRecordsEos` | standalone-apps/clamma-ws-demo/ss-genpipe.c:31-35 | `eom_when_empty` is set after a run iff it was set before or some chunk carried an EOS |
| `Pipeline.EomMeansComplete` | standalone-apps/clamma-ws-demo/ss-clamma-srv.c:111-116 | a frame carries EOM only when everything accepted has been sent and an EOS arrived |
| `Pipeline.PlaySnoc` | standalone-apps/clamma-ws-demo/ss-genpipe.c:21 | events are applied one at a time, in order |
| `Pipeline.FitsExtend` | standalone-apps/clamma-ws-demo/ss-clamma-srv.c:85-109 | a tx window never brings the ring nearer to overrun |
| `Pipeline.DetachedRingIsSilent` | standalone-apps/clamma-ws-demo/ss-genpipe.c:43-47 | a ring with no client never asks for tx, whatever it receives |
| `Pipeline.DisconnectSilencesRing` | standalone-apps/clamma-ws-demo/ss-clamma-srv.c:242-245 | after the disconnect transition the connection's ring asks for no more tx |
| `Options.UsageLetters` | standalone-apps/clamma-gen/clamma-gen.c:111-125 | each program's usage text lists exactly the letters its parser accepts |
| `Options.ParseFrom` | standalone-apps/clamma-gen/clamma-gen.c:61-78 | the pair loop ends in usage iff some pair from the current index on lacks a value, is not `-` plus one character, or names a letter outside the program's set |
| `Options.Parse` | standalone-apps/clamma-gen-multi/clamma-gen-multi.c:79-100 | usage iff fewer than 2 arguments or a malformed pair; otherwise the checkpoint is `argv[1]` and only accepted letters carry values |
| `Options.AcceptedIsEven` | standalone-apps/clamma-gen/clamma-gen.c:61-63 | an accepted command line has an even number of arguments: no option lacks its value |
| `Options.ParseFromAppend` | standalone-apps/clamma-gen/clamma-gen.c:61-78 | the loop on a line with one more pair is the loop on the line, followed by that pair |
| `Options.AppendPair` | standalone-apps/clamma-chat/clamma-chat.c:68-83 | appending a pair parses iff the line did and the token is accepted, and the new value replaces the letter's earlier one |
| `Options.LastValueWins` | standalone-apps/clamma-gen/clamma-gen.c:65-77 | a letter given twice keeps the second value |
| `Options.LastGivenPrefix` | standalone-apps/clamma-gen/clamma-gen.c:61 | the value of a letter depends only on the pairs read so far |
| `Options.ParseValues` | standalone-apps/clamma-chat/clamma-chat.c:68-83 | a letter has a parsed value iff some pair gives it, and that value is the one of its last pair |
| `Apps.Setup` | standalone-apps/clamma-gen/clamma-gen.c:46-96 | usage gives exit 1; otherwise construction and the query get the defaults or the last values given (same lines in clamma-gen-multi.c:64-127 and clamma-chat.c:48-101). The `-s` seed reaches the query in all three programs. `-t`/`-p` reach the query only in chat; in the generators they reach only construction, which ignores them (inc/clamma.h:161-181), so there they have no effect. The tokenizer defaults and `-m` is accepted only in the generators |
| `Apps.ChatTemperatureTakesEffect` | standalone-apps/clamma-chat/clamma-chat.c:61-72 | in chat a final `-t` sets the query's temperature |
| `Apps.GenTemperatureOnlyConstructs` | standalone-apps/clamma-gen/clamma-gen.c:66-92 | in the generators a final `-t` reaches only construction, which ignores it, while the query always runs at 1.0: the option has no effect |
| `Apps.OutPathInjective` | standalone-apps/clamma-gen-multi/clamma-gen-multi.c:111 | different sessions write different files |
| `Apps.OutPathFits` | standalone-apps/clamma-gen-multi/clamma-gen-multi.c:69-111 | every session's path fits the 63 bytes given to `snprintf`, so it is never cut short |
| `Apps.PathsDistinct` | standalone-apps/clamma-gen-multi/clamma-gen-multi.c:106-111 | the first `k` sessions write pairwise different files |
| `Apps.Sessions` | standalone-apps/clamma-gen-multi/clamma-gen-multi.c:106-129 | as many sessions as the count (none if it is below one), session `n` writing `/tmp/out<n>.txt`, all with the same query, no two sharing a file |
| `Apps.MultiPlan` | standalone-apps/clamma-gen-multi/clamma-gen-multi.c:64-129 | usage iff the line is malformed; otherwise 2 sessions, or the `-c` count, all running the query `Setup` gives |
| `Apps.ChatTurns` | standalone-apps/clamma-chat/clamma-chat.c:89-116 | a malformed command line runs no turn; otherwise the first turn is the query `Setup` starts, asking the `-i` prompt, each later turn asks the text just read with the same other settings, and the loop ends at the first empty read |
| `DemoPage.FirstLine` | standalone-apps/clamma-ws-demo/assets/clamma-ws-demo.js:5 | the head is the longest prefix without a newline |
| `DemoPage.SplitRoundTrip` | standalone-apps/clamma-ws-demo/assets/clamma-ws-demo.js:5-9 | head followed by remainder is the text; the remainder is empty iff there is no newline, and otherwise starts with the newline |
| `DemoPage.SplitUnique` | standalone-apps/clamma-ws-demo/assets/clamma-ws-demo.js:5-9 | any cut into a newline-free head and a remainder that is empty or starts with a newline is the split |
| `DemoPage.Markup` | standalone-apps/clamma-ws-demo/assets/clamma-ws-demo.js:7-9 | the markup is `<span class="query">`, the first line, `</span><br>`, then the remainder, each verbatim with no escaping, and the two pieces of text put back together give the response |
| `DemoPage.ReplaceFirstNewline` | standalone-apps/clamma-ws-demo/assets/clamma-ws-demo.js:20-21 | text with no newline is unchanged; otherwise the first newline, and only it, becomes `<br>` |
| `DemoPage.ReplaceFirstOnly` | standalone-apps/clamma-ws-demo/assets/clamma-ws-demo.js:20-21 | later newlines survive the rewrite |
| `DemoPage.ErrorEntry` | standalone-apps/clamma-ws-demo/assets/clamma-ws-demo.js:26 | the log entry is `Error: ` followed by the status in digits |
| `DemoPage.ErrorEntryRoundTrip` | standalone-apps/clamma-ws-demo/assets/clamma-ws-demo.js:37 | the status can be read back from its log entry |
| `DemoPage.TitleHandlerAsWritten` | standalone-apps/clamma-ws-demo/assets/clamma-ws-demo.js:19-29 | the title handler writes the title on every event; it logs nothing while the first chat request is not done, and once that request is done it acts exactly as the corrected handler would on a finished title request, logging iff the title status is not 200 |
| `DemoPage.TitleHandlerChecksWrongRequest` | standalone-apps/clamma-ws-demo/assets/clamma-ws-demo.js:19-29 | the title handler misses its own failure while the first chat request is loading, and once that request is done it logs a failing title request early and repeatedly: once each at `readyState` 2, 3 and 4 |
| `DemoPage.TitleFailureLoggedOnce` | standalone-apps/clamma-ws-demo/assets/clamma-ws-demo.js:19-29 | the corrected handler logs the same failing title request once, when it is done |
| `DemoPage.OnChange` | standalone-apps/clamma-ws-demo/assets/clamma-ws-demo.js:31-51 | a handler rewrites its own region from the response on every event, leaves the others alone, and logs one entry iff its request is done with a status other than 200 |
| `DemoPage.ExpectedSnoc` | standalone-apps/clamma-ws-demo/assets/clamma-ws-demo.js:19-51 | the latest response of a request after one more event is that event's, if it is for that request, and otherwise unchanged |
| `DemoPage.TitleHandlerAgreesInStep` | standalone-apps/clamma-ws-demo/assets/clamma-ws-demo.js:19-29 | the corrected and as-written title handlers agree whenever both requests are in the same state |
| `DemoPage.StatusOnlyLogs` | standalone-apps/clamma-ws-demo/assets/clamma-ws-demo.js:42-51 | the status changes only what is logged, never what the page shows |
| `DemoPage.ReplaySnoc` | standalone-apps/clamma-ws-demo/assets/clamma-ws-demo.js:14-68 | events are handled one at a time, in delivery order |
| `DemoPage.RegionShowsLatest` | standalone-apps/clamma-ws-demo/assets/clamma-ws-demo.js:19-51 | each region shows its own request's latest response, whatever the other requests do, and stays as it was until its request reports |
| `DemoPage.LogCountsFailures` | standalone-apps/clamma-ws-demo/assets/clamma-ws-demo.js:19-50 | with the title handler testing its own request, the log is the old log followed by one `Error: <status>` entry per event of a request done with a status other than 200, in event order |
| `DemoPage.FailureEntries` | standalone-apps/clamma-ws-demo/assets/clamma-ws-demo.js:26-48 | one entry per event of a completed, unsuccessful request |
| `DemoPage.PageRequestsRoute` | standalone-apps/clamma-ws-demo/assets/clamma-ws-demo.js:53-66 | against the server's routing, the title request gets the description and each chat request starts a generation |

## Left out

- The library API (`clamma_txf_construct`, `clamma_session_construct`,
  `clamma_session_query`, `clamma_sessions_step_next`, cancel, destroy) is not
  modelled. It is float inference and its implementation is not part of this
  model. The server transition names the calls it makes as `Action`s. The
  programs stop at the settings they hand over.
- The failure paths of the command-line programs are not modelled. These are a
  failed construction, session or query, a failed `open` of an output file,
  and the cleanup at `bail`/`bail1`/`bail2`.
- `atoi`, `atol` and `atof` are not modelled. Option values stay the text given
  (`Query.Value`). The `-c` count of `clamma-gen-multi` is the parameter `cValue`.
- `Apps.MultiPlan` requires the `-c` count not to exceed `MAX_SESSIONS` (16).
  The program does not check it, and beyond 16 it writes past its arrays.
- Option tokens are sequences of characters. A C string ends at its first NUL,
  so a token with an embedded NUL would measure differently. Command-line
  arguments cannot contain one.
- The `CREATING` and `CONNECTING` states of `clamma_srv_state` are not modelled.
  Neither are the mount table, the JSON policy and the worker thread of
  clamma-ws-demo.c. They are framework plumbing.
- `Pipeline.Fifo` requires that queued bytes plus a chunk's accepted bytes stay
  below 2048. The source has no such guard. `GenPipe.RxOverrun` shows the loss
  at exactly 2048.
- `total` is a `size_t` but is modelled as an unbounded `nat`. Wrap-around after
  2^64 bytes is not modelled. `head`, `tail` and `pending` do model the
  `size_t` subtraction (`GenPipe.Distance`).
- How the pipe splits the generated text into reads is arbitrary. It is modelled
  as any sequence of `Chunk` events.
- The writes into the pipe (`issue_cb`, the description write) and their partial
  failures are left out. So are the semaphore kick and the contents of
  `model_desc`.
- `DemoPage.LogCountsFailures` counts log entries for the page with the
  corrected title handler (see Findings). The page as written logs title
  failures by the first chat request's state, so its log follows no such count.
- `Apps.ChatTurns` takes each read's text as one string. It does not model the
  4095-byte read size, truncation at an embedded NUL, or the `prompt:` output.
- The page script's XHR transport is not modelled. Neither are its timeout
  (recorded as `DemoPage.RequestTimeout`, which no member uses), the DOM element
  lookup, or the console.
  `response` is taken to be a string, which `responseType = 'text'` ensures.
- `ClammaSrv.ServerTxn` leaves the ring's session pointer at `Destroyed` after a
  failed query, as the code does. `ClammaSrv.CancelAfterFailedQuery` shows that
  a later disconnect asks to cancel a query on it. Whether the framework
  delivers that disconnect after `DISCONNECT_ME`, and what cancelling a
  destroyed session does, are outside this model.

## Findings

| source | as written | input that shows it | evidently intended | confidence | as-written member | corrected member |
|---|---|---|---|---|---|---|
| standalone-apps/clamma-ws-demo/assets/clamma-ws-demo.js:23 | the title request's handler decides whether to log by `xhr1.readyState`, the first chat request's state | the title request done with status 500 while the chat request is at readyState 3: nothing is logged. Or the chat request done while the title request fails with 500: `Error: 500` is logged at readyState 2, again at 3 and again at 4 | test `xhr0.readyState`, like the other two handlers test their own request | high; not executed | `DemoPage.TitleHandlerAsWritten`, `DemoPage.TitleHandlerChecksWrongRequest` | `DemoPage.OnChange` (title case), `DemoPage.TitleHandlerAgreesInStep`, `DemoPage.TitleFailureLoggedOnce` |

=== FILE: apps.dfy ===
/**
 What the three command-line programs do with a parsed command line: the
 settings they construct the transformer with, the query they start, the
 output files `clamma-gen-multi` opens for its sessions, and the turns of a
 `clamma-chat` conversation.

 Construction, querying and stepping are library calls whose effect is not
 modelled; the model stops at the settings handed to them.  Their failures
 end the programs early and are not modelled either.
 */
module Apps {
  import opened Common
  import opened Query
  import opened Options

  /** `info.model_type`: left zero, or `CLAMMA_MODEL_CHAT`. */
  datatype ModelType = DefaultModel | ChatModel

  /**
   The fields of `clamma_txf_info_t` as the programs hand them to transformer
   construction.  The library ignores `temperature`, `topp` and `rng_seed`
   there; they take effect only through the query.
   */
  datatype ConstructInfo = ConstructInfo(
    checkpoint: string,
    tokenizer: Value,
    modelType: ModelType,
    temperature: Value,
    topp: Value,
    seed: Value,
    modelAccess: Value,
    threads: Value)

  /** A program's start: usage text and an exit status, or the transformer settings and the query. */
  datatype Start = UsageExit(status: int) | Start(construct: ConstructInfo, query: QueryInfo)

  const DefaultTokenizer: string := "tokenizer.bin"
  const DefaultSteps: string := "256"
  const DefaultTemperature: string := "1.0"
  const DefaultTopp: string := "0.9"

  /** The value the command line gives letter `c` by the reference reading, or `dflt` when none does. */
  function Chosen(argv: seq<string>, c: char, dflt: Value): Value {
    match LastGiven(argv, c, |argv|)
    case Some(v) => Arg(v)
    case None => dflt
  }

  /** The value the parser recorded for letter `c`, or `dflt`. */
  function Pick(values: map<char, string>, c: char, dflt: Value): Value {
    match Lookup(values, c)
    case Some(v) => Arg(v)
    case None => dflt
  }

  /**
   The start of `clamma-gen`, `clamma-gen-multi` and `clamma-chat`.  The
   generators send `-t`/`-p` to construction only, which ignores them, and
   start the query with 1.0/0.9, so there the two options have no effect;
   the chat program starts from 1.0/0.9 and lets `-t`/`-p` replace them for
   both.  `-s` reaches the query in all three.  Only the generators default
   the tokenizer and accept `-m`.
   */
  function Setup(app: App, argv: seq<string>): (r: Start)
    ensures r.UsageExit? <==> !ArgsOk(app, argv)
    ensures r.UsageExit? ==> r.status == UsageStatus
    ensures r.Start? ==>
              && r.construct.checkpoint == argv[1]
              && r.construct.modelType == (if app == Chat then ChatModel else DefaultModel)
              && r.construct.tokenizer == Chosen(argv, 'z', if app == Chat then Unset else Const(DefaultTokenizer))
              && r.construct.temperature == Chosen(argv, 't', if app == Chat then Const(DefaultTemperature) else Unset)
              && r.construct.topp == Chosen(argv, 'p', if app == Chat then Const(DefaultTopp) else Unset)
              && r.construct.seed == Chosen(argv, 's', Unset)
              && r.construct.threads == Chosen(argv, 'h', Unset)
              && r.construct.modelAccess == (if app == Chat then Unset else Chosen(argv, 'm', Unset))
              && r.query.system == Chosen(argv, 'y', Unset)
              && r.query.prompt == Chosen(argv, 'i', Unset)
              && r.query.limit == Chosen(argv, 'n', Const(DefaultSteps))
              && r.query.temperature == (if app == Chat then r.construct.temperature else Const(DefaultTemperature))
              && r.query.topp == (if app == Chat then r.construct.topp else Const(DefaultTopp))
              && r.query.seed == Chosen(argv, 's', Unset)
  {
    match Parse(app, argv)
    case Usage => UsageExit(UsageStatus)
    case Parsed(checkpoint, values) =>
      ParseValues(app, argv);
      assert Lookup(values, 'm') == LastGiven(argv, 'm', |argv|);
      var chat := app == Chat;
      var construct := ConstructInfo(
        checkpoint,
        Pick(values, 'z', if chat then Unset else Const(DefaultTokenizer)),
        if chat then ChatModel else DefaultModel,
        Pick(values, 't', if chat then Const(DefaultTemperature) else Unset),
        Pick(values, 'p', if chat then Const(DefaultTopp) else Unset),
        Pick(values, 's', Unset),
        Pick(values, 'm', Unset),
        Pick(values, 'h', Unset));
      var query := QueryInfo(
        Pick(values, 'y', Unset),
        Pick(values, 'i', Unset),
        Pick(values, 'n', Const(DefaultSteps)),
        if chat then construct.temperature else Const(DefaultTemperature),
        if chat then construct.topp else Const(DefaultTopp),
        Pick(values, 's', Unset));
      Start(construct, query)
  }

  /** In `clamma-chat` a `-t` given last sets the temperature of every query. */
  lemma ChatTemperatureTakesEffect(argv: seq<string>, x: string)
    requires ArgsOk(Chat, argv)
    ensures Setup(Chat, argv + ["-t", x]).Start?
    ensures Setup(Chat, argv + ["-t", x]).query.temperature == Arg(x)
  {
    AppendPair(Chat, argv, "-t", x);
    assert (argv + ["-t", x])[|argv|] == "-t";
  }

  /**
   In the generators a `-t` given last reaches construction, which ignores
   it, but never the query: the option has no effect.
   */
  lemma GenTemperatureOnlyConstructs(app: App, argv: seq<string>, x: string)
    requires app != Chat && ArgsOk(app, argv)
    ensures Setup(app, argv + ["-t", x]).Start?
    ensures Setup(app, argv + ["-t", x]).construct.temperature == Arg(x)
    ensures Setup(app, argv + ["-t", x]).query.temperature == Const(DefaultTemperature)
  {
    AppendPair(app, argv, "-t", x);
    assert (argv + ["-t", x])[|argv|] == "-t";
  }

  /** `MAX_SESSIONS`: the size of `clamma-gen-multi`'s session and file arrays. */
  const MaxSessions: int := 16

  /** How many sessions run when `-c` is not given. */
  const DefaultQueries: int := 2

  /** The size of the path buffer; `snprintf` is given one byte less. */
  const PathBuffer: nat := 64

  /** The output file of session `n`: `/tmp/out<n>.txt`. */
  function OutPath(n: nat): string {
    "/tmp/out" + Decimal(n) + ".txt"
  }

  /** Different sessions write different files. */
  lemma OutPathInjective(m: nat, n: nat)
    requires m != n
    ensures OutPath(m) != OutPath(n)
  {
    var pm, pn := OutPath(m), OutPath(n);
    assert pm[8..|pm| - 4] == Decimal(m);
    assert pn[8..|pn| - 4] == Decimal(n);
    DecimalInjective(m, n);
  }

  /** The output path of every session fits the buffer `snprintf` is given, so it is never cut short. */
  lemma OutPathFits(n: nat)
    requires n < MaxSessions
    ensures |OutPath(n)| < PathBuffer - 1
  {
    if n >= 10 {
      assert Decimal(n) == Decimal(n / 10) + [DigitChar(n % 10)];
    }
  }

  /** The first `k` sessions write pairwise different files. */
  lemma PathsDistinct(k: nat)
    ensures forall m, n :: 0 <= m < n < k ==> OutPath(m) != OutPath(n)
  {
    forall m, n | 0 <= m < n < k
      ensures OutPath(m) != OutPath(n)
    {
      OutPathInjective(m, n);
    }
  }

  /** One query session of `clamma-gen-multi`: its output file and its query. */
  datatype Session = Session(path: string, query: QueryInfo)

  /**
   The session loop of `clamma-gen-multi`: sessions `0 .. count - 1`, each
   with its own output file and the same query.  A count below one runs no
   session.
   */
  function Sessions(query: QueryInfo, count: int): (s: seq<Session>)
    requires count <= MaxSessions
    ensures |s| == if count < 0 then 0 else count
    ensures forall n :: 0 <= n < |s| ==> s[n].query == query
    ensures forall n :: 0 <= n < |s| ==> s[n].path == OutPath(n)
    ensures forall m, n :: 0 <= m < n < |s| ==> s[m].path != s[n].path
  {
    var k := if count < 0 then 0 else count;
    PathsDistinct(k);
    seq(k, n requires 0 <= n < k => Session(OutPath(n), query))
  }

  /** `clamma-gen-multi`'s start: usage, or the transformer settings and its sessions. */
  datatype MultiStart = MultiUsage(status: int) | MultiRun(construct: ConstructInfo, sessions: seq<Session>)

  /**
   `clamma-gen-multi`: `cValue` is the number `atoi` reads from the `-c`
   value.  The program does not check it against `MAX_SESSIONS`; here it
   must not exceed it.
   */
  function MultiPlan(argv: seq<string>, cValue: int): (r: MultiStart)
    requires LastGiven(argv, 'c', |argv|).Some? ==> cValue <= MaxSessions
    ensures r.MultiUsage? <==> !ArgsOk(GenMulti, argv)
    ensures r.MultiUsage? ==> r.status == UsageStatus
    ensures r.MultiRun? ==>
              && r.construct == Setup(GenMulti, argv).construct
              && |r.sessions| == (if LastGiven(argv, 'c', |argv|).None? then DefaultQueries
                                  else if cValue < 0 then 0 else cValue)
              && (forall n :: 0 <= n < |r.sessions| ==> r.sessions[n].query == Setup(GenMulti, argv).query)
              && (forall m, n :: 0 <= m < n < |r.sessions| ==> r.sessions[m].path != r.sessions[n].path)
  {
    match Setup(GenMulti, argv)
    case UsageExit(status) => MultiUsage(status)
    case Start(construct, query) =>
      var count := if Chosen(argv, 'c', Unset).Arg? then cValue else DefaultQueries;
      MultiRun(construct, Sessions(query, count))
  }

  /**
   The turns of `clamma-chat` run on command line `argv`.  Each element of
   `lines` is what one read of standard input returned, the empty text
   standing for end of input or an error.  A malformed command line runs no
   turn.  Otherwise the first turn is the query `Setup` starts, asking the
   `-i` prompt; every later turn asks the text just read, with the same
   system prompt, limit and sampling; the conversation ends at the first
   empty read.
   */
  method ChatTurns(argv: seq<string>, lines: seq<string>) returns (turns: seq<QueryInfo>)
    ensures turns == [] <==> !ArgsOk(Chat, argv)
    ensures ArgsOk(Chat, argv) ==>
              && |turns| <= |lines| + 1
              && turns[0] == Setup(Chat, argv).query
              && turns[0].prompt == Chosen(argv, 'i', Unset)
    ensures forall j :: 1 <= j < |turns| ==> turns[j] == turns[0].(prompt := Typed(lines[j - 1]))
    ensures forall j :: 0 <= j < |turns| - 1 ==> lines[j] != []
    ensures turns != [] ==> |turns| - 1 == |lines| || lines[|turns| - 1] == []
  {
    var start := Setup(Chat, argv);
    if start.UsageExit? {
      return [];
    }
    var first := start.query;
    turns := [first];
    var k := 0;
    while k < |lines| && lines[k] != []
      invariant 0 <= k <= |lines|
      invariant |turns| == k + 1 && turns[0] == first
      invariant forall j :: 1 <= j < |turns| ==> turns[j] == first.(prompt := Typed(lines[j - 1]))
      invariant forall j :: 0 <= j < k ==> lines[j] != []
    {
      turns := turns + [first.(prompt := Typed(lines[k]))];
      k := k + 1;
    }
  }
}

=== FILE: common.dfy ===
/**
 Small shared vocabulary: an optional value, the byte type, and the decimal
 rendering of non-negative integers that both the C demo (`"%d"`) and the page
 script (number-to-string concatenation) use.
 */
module Common {

  /** A value that may be absent; stands in for a nullable C pointer. */
  datatype Option<+T> = None | Some(value: T)

  /** An unsigned 8-bit quantity, as carried through the token pipe. */
  newtype byte = b: int | 0 <= b < 256

  predicate IsDigit(c: char) {
    '0' <= c <= '9'
  }

  function DigitChar(d: nat): (c: char)
    requires d < 10
    ensures IsDigit(c)
  {
    ['0', '1', '2', '3', '4', '5', '6', '7', '8', '9'][d]
  }

  function DigitValue(c: char): (d: nat)
    requires IsDigit(c)
    ensures d < 10 && DigitChar(d) == c
  {
    if c == '0' then 0 else if c == '1' then 1 else if c == '2' then 2
    else if c == '3' then 3 else if c == '4' then 4 else if c == '5' then 5
    else if c == '6' then 6 else if c == '7' then 7 else if c == '8' then 8
    else 9
  }

  /** Decimal text of `n` with no sign and no leading zeros, as `%d` prints it. */
  function Decimal(n: nat): (s: string)
    ensures 1 <= |s|
    ensures forall i :: 0 <= i < |s| ==> IsDigit(s[i])
    ensures s[0] == '0' ==> n == 0
  {
    if n < 10 then [DigitChar(n)] else Decimal(n / 10) + [DigitChar(n % 10)]
  }

  /** Reads a string of decimal digits back into the number it denotes. */
  function DecimalValue(s: string): nat
    requires forall i :: 0 <= i < |s| ==> IsDigit(s[i])
  {
    if |s| == 0 then 0 else DecimalValue(s[..|s| - 1]) * 10 + DigitValue(s[|s| - 1])
  }

  /** Reading the printed form of a number gives the number back. */
  lemma {:induction false} DecimalRoundTrip(n: nat)
    ensures DecimalValue(Decimal(n)) == n
  {
    var s := Decimal(n);
    DigitBack(n % 10);
    if n >= 10 {
      assert s[..|s| - 1] == Decimal(n / 10);
      assert s[|s| - 1] == DigitChar(n % 10);
      DecimalRoundTrip(n / 10);
    }
  }

  /** Reading a digit back gives the value it was printed from. */
  lemma DigitBack(d: nat)
    requires d < 10
    ensures DigitValue(DigitChar(d)) == d
  {
  }

  /** Different numbers print differently. */
  lemma DecimalInjective(m: nat, n: nat)
    requires m != n
    ensures Decimal(m) != Decimal(n)
  {
    DecimalRoundTrip(m);
    DecimalRoundTrip(n);
  }
}

=== FILE: demo_page.dfy ===
/**
 The script of the web demo's page.  It issues three requests, one for the
 model description and two generation streams, and on every
 `readystatechange` of a request rewrites that request's region of the page
 from the response received so far.  A request that completes with a status
 other than 200 adds an entry to the console log.

 The DOM and the console are modelled as a `Page` record; a
 `readystatechange` is an event carrying the request's current state.
 */
module DemoPage {
  import opened Common
  import opened ClammaSrv

  /** The text before the first newline, or all of it: `curr.split('\n', 1)[0]`. */
  function FirstLine(s: string): (h: string)
    ensures |h| <= |s| && h == s[..|h|]
    ensures '\n' !in h
    ensures |h| < |s| ==> s[|h|] == '\n'
  {
    if |s| == 0 || s[0] == '\n' then []
    else
      var t := FirstLine(s[1..]);
      assert s[..|t| + 1] == [s[0]] + t;
      [s[0]] + t
  }

  /** The remainder `curr.substring(head.length)`: it starts at the newline itself. */
  function Rest(s: string): string {
    s[|FirstLine(s)|..]
  }

  /**
   Splitting round-trips: head and remainder make up the text, the remainder
   is empty exactly when the text has no newline, and otherwise begins with
   that newline.
   */
  lemma SplitRoundTrip(s: string)
    ensures FirstLine(s) + Rest(s) == s
    ensures Rest(s) == [] <==> '\n' !in s
    ensures Rest(s) != [] ==> Rest(s)[0] == '\n'
  {
    var h := FirstLine(s);
    assert h + s[|h|..] == s;
    if |h| == |s| {
      assert h == s;
    }
  }

  /** The split is the only way to cut the text into a newline-free head and a remainder that is empty or starts with a newline. */
  lemma {:induction false} SplitUnique(h: string, r: string)
    requires '\n' !in h
    requires r == [] || r[0] == '\n'
    ensures FirstLine(h + r) == h && Rest(h + r) == r
    decreases |h|
  {
    if |h| > 0 {
      assert (h + r)[1..] == h[1..] + r;
      assert '\n' !in h[1..] by {
        assert forall k :: 0 <= k < |h[1..]| ==> h[1..][k] == h[k + 1];
      }
      SplitUnique(h[1..], r);
      assert [h[0]] + h[1..] == h;
    } else {
      assert h + r == r;
    }
  }

  const QueryOpen: string := "<span class=\"query\">"
  const QueryClose: string := "</span><br>"

  /**
   The markup `handle` writes: the opening tag, the first line as the query,
   the closing tag, then the rest, with nothing escaped.
   */
  function Markup(s: string): (m: string)
    ensures |m| == |QueryOpen| + |s| + |QueryClose|
    ensures m[..|QueryOpen|] == QueryOpen
    ensures m[|QueryOpen|..|QueryOpen| + |FirstLine(s)|] == FirstLine(s)
    ensures m[|QueryOpen| + |FirstLine(s)|..|QueryOpen| + |FirstLine(s)| + |QueryClose|] == QueryClose
    ensures m[|QueryOpen| + |FirstLine(s)| + |QueryClose|..] == Rest(s)
    ensures m[|QueryOpen|..|QueryOpen| + |FirstLine(s)|] + m[|QueryOpen| + |FirstLine(s)| + |QueryClose|..] == s
  {
    var h, r := FirstLine(s), Rest(s);
    Pieces(QueryOpen, h, QueryClose, r);
    SplitRoundTrip(s);
    QueryOpen + h + QueryClose + r
  }

  /** The four pieces of a four-piece concatenation, cut back out. */
  lemma Pieces<T>(a: seq<T>, b: seq<T>, c: seq<T>, d: seq<T>)
    ensures |a + b + c + d| == |a| + |b| + |c| + |d|
    ensures (a + b + c + d)[..|a|] == a
    ensures (a + b + c + d)[|a|..|a| + |b|] == b
    ensures (a + b + c + d)[|a| + |b|..|a| + |b| + |c|] == c
    ensures (a + b + c + d)[|a| + |b| + |c|..] == d
  {
    var m := a + b + c + d;
    assert m == a + (b + (c + d));
    assert m[|a|..] == b + (c + d);
    assert m[|a| + |b|..] == c + d;
    assert m[|a| + |b| + |c|..] == m[|a|..][|b| + |c|..];
  }

  /** `String.prototype.replace('\n', "<br>")`: only the first newline is replaced. */
  function ReplaceFirstNewline(s: string): (r: string)
    ensures '\n' !in s ==> r == s
    ensures '\n' in s ==> r == FirstLine(s) + "<br>" + Rest(s)[1..]
  {
    if |s| == 0 then s
    else if s[0] == '\n' then "<br>" + s[1..]
    else
      var t := ReplaceFirstNewline(s[1..]);
      FirstLineCons(s);
      if '\n' in s then
        ConsAssoc(s[0], FirstLine(s[1..]), "<br>", Rest(s[1..])[1..]);
        [s[0]] + t
      else
        [s[0]] + t
  }

  /** Splitting a text that starts with an ordinary character splits its tail. */
  lemma FirstLineCons(s: string)
    requires |s| > 0 && s[0] != '\n'
    ensures FirstLine(s) == [s[0]] + FirstLine(s[1..])
    ensures Rest(s) == Rest(s[1..])
    ensures '\n' in s <==> '\n' in s[1..]
    ensures '\n' !in s ==> [s[0]] + s[1..] == s
  {
    assert s == [s[0]] + s[1..];
  }

  /** Regrouping a cons in front of three pieces; kept apart so the rewrite's proof stays small. */
  lemma ConsAssoc<T>(x: T, a: seq<T>, b: seq<T>, c: seq<T>)
    ensures [x] + (a + b + c) == [x] + a + b + c
  {
  }

  /**
   In a text whose first line break follows `h`, that break becomes `<br>`
   and everything after it, later line breaks included, is kept as it is.
   */
  lemma ReplaceFirstOnly(h: string, t: string)
    requires '\n' !in h
    ensures ReplaceFirstNewline(h + "\n" + t) == h + "<br>" + t
  {
    SplitUnique(h, "\n" + t);
    assert h + "\n" + t == h + ("\n" + t);
    assert ("\n" + t)[1..] == t;
  }

  /** A request's state as its handler sees it. */
  datatype Xhr = Xhr(readyState: nat, status: nat, response: string)

  /** `XMLHttpRequest.DONE` */
  const Done: nat := 4
  /** The status a handler treats as success. */
  const Success: nat := 200

  /** The page regions the handlers write and the console log. */
  datatype Page = Page(title: string, chat1: string, chat2: string, log: seq<string>)

  /** The console entry for a failed request: `'Error: ' + status`. */
  function ErrorEntry(status: nat): (e: string)
    ensures |e| > 7 && e[..7] == "Error: "
    ensures forall i :: 7 <= i < |e| ==> IsDigit(e[i])
  {
    "Error: " + Decimal(status)
  }

  /** The status can be read back from its console entry. */
  lemma ErrorEntryRoundTrip(status: nat)
    ensures DecimalValue(ErrorEntry(status)[7..]) == status
  {
    assert ErrorEntry(status)[7..] == Decimal(status);
    DecimalRoundTrip(status);
  }

  /** Whether a request has completed without success. */
  predicate Failed(x: Xhr) {
    x.readyState == Done && x.status != Success
  }

  /**
   The title handler as written: it writes the title from its own request
   but decides whether to log by the first chat request's `readyState`.
   */
  function TitleHandlerAsWritten(p: Page, xhr0: Xhr, xhr1: Xhr): (q: Page)
    ensures q.title == ReplaceFirstNewline(xhr0.response)
    ensures q.chat1 == p.chat1 && q.chat2 == p.chat2
    ensures q.log == p.log || q.log == p.log + [ErrorEntry(xhr0.status)]
    ensures xhr1.readyState != Done ==> q.log == p.log
    ensures xhr1.readyState == Done ==> q == OnChange(p, Title, xhr0.(readyState := Done))
  {
    var log := if xhr1.readyState == Done && xhr0.status != Success then p.log + [ErrorEntry(xhr0.status)] else p.log;
    p.(title := ReplaceFirstNewline(xhr0.response), log := log)
  }

  /**
   The title handler's log decision follows the other request.  While the
   first chat request is loading, a failed title request is not logged; once
   it is done, a failing title request is logged early and again on every
   later event: at `readyState` 2, at each 3 and at 4.
   */
  lemma TitleHandlerChecksWrongRequest(p: Page)
    ensures var failed := Xhr(Done, 500, "");
            var loading := Xhr(3, 200, "");
            Failed(failed) && TitleHandlerAsWritten(p, failed, loading).log == p.log
    ensures var finished := Xhr(Done, 200, "");
            var q1 := TitleHandlerAsWritten(p, Xhr(2, 500, ""), finished);
            var q2 := TitleHandlerAsWritten(q1, Xhr(3, 500, ""), finished);
            var q3 := TitleHandlerAsWritten(q2, Xhr(Done, 500, ""), finished);
            q3.log == p.log + [ErrorEntry(500), ErrorEntry(500), ErrorEntry(500)]
  {
  }

  /** The same three title events, handled by the corrected handler, log the failure once. */
  lemma TitleFailureLoggedOnce(p: Page)
    ensures var q1 := OnChange(p, Title, Xhr(2, 500, ""));
            var q2 := OnChange(q1, Title, Xhr(3, 500, ""));
            var q3 := OnChange(q2, Title, Xhr(Done, 500, ""));
            q3.log == p.log + [ErrorEntry(500)]
  {
  }

  /** The three requests of the page. */
  datatype Req = Title | Chat1 | Chat2

  /** What a request's handler writes into its region for a response. */
  function Render(req: Req, response: string): string {
    if req == Title then ReplaceFirstNewline(response) else Markup(response)
  }

  /** The region a request's handler writes. */
  function Shown(p: Page, req: Req): string {
    match req
    case Title => p.title
    case Chat1 => p.chat1
    case Chat2 => p.chat2
  }

  /** The page with the region of `req` replaced by `v`. */
  function Write(p: Page, req: Req, v: string): (q: Page)
    ensures Shown(q, req) == v
    ensures forall other :: other != req ==> Shown(q, other) == Shown(p, other)
    ensures q.log == p.log
  {
    match req
    case Title => p.(title := v)
    case Chat1 => p.(chat1 := v)
    case Chat2 => p.(chat2 := v)
  }

  /**
   One `readystatechange` of `req`, with the title handler checking its own
   request.  The region is rewritten whatever the state; the status only
   decides the log entry.
   */
  function OnChange(p: Page, req: Req, x: Xhr): (q: Page)
    ensures Shown(q, req) == Render(req, x.response)
    ensures forall other :: other != req ==> Shown(q, other) == Shown(p, other)
    ensures Failed(x) ==> q.log == p.log + [ErrorEntry(x.status)]
    ensures !Failed(x) ==> q.log == p.log
  {
    var log := if Failed(x) then p.log + [ErrorEntry(x.status)] else p.log;
    Write(p.(log := log), req, Render(req, x.response))
  }

  /** The corrected title handler and the as-written one agree whenever both requests are in the same state. */
  lemma TitleHandlerAgreesInStep(p: Page, xhr0: Xhr, xhr1: Xhr)
    requires xhr1.readyState == xhr0.readyState
    ensures TitleHandlerAsWritten(p, xhr0, xhr1) == OnChange(p, Title, xhr0)
  {
  }

  /** The status never changes what the page shows, only what is logged. */
  lemma StatusOnlyLogs(p: Page, req: Req, x: Xhr, status: nat)
    ensures OnChange(p, req, x).(log := []) == OnChange(p, req, x.(status := status)).(log := [])
  {
    var q, q' := OnChange(p, req, x), OnChange(p, req, x.(status := status));
    assert Shown(q, req) == Shown(q', req);
    assert forall other :: Shown(q, other) == Shown(q', other);
  }

  /** A sequence of `readystatechange` events, in the order the browser delivers them. */
  function Replay(p: Page, events: seq<(Req, Xhr)>): Page
    decreases |events|
  {
    if |events| == 0 then p
    else Replay(OnChange(p, events[0].0, events[0].1), events[1..])
  }

  /** Reference: the state of `req` at its last event, scanning backwards. */
  function LastState(events: seq<(Req, Xhr)>, req: Req): Option<Xhr>
    decreases |events|
  {
    if |events| == 0 then None
    else if events[|events| - 1].0 == req then Some(events[|events| - 1].1)
    else LastState(events[..|events| - 1], req)
  }

  /** How many events report a failed request. */
  function Failures(events: seq<(Req, Xhr)>): nat
    decreases |events|
  {
    if |events| == 0 then 0
    else (if Failed(events[0].1) then 1 else 0) + Failures(events[1..])
  }

  lemma {:induction false} ReplaySnoc(p: Page, events: seq<(Req, Xhr)>, e: (Req, Xhr))
    ensures Replay(p, events + [e]) == OnChange(Replay(p, events), e.0, e.1)
    decreases |events|
  {
    if |events| == 0 {
      assert events + [e] == [e];
    } else {
      assert (events + [e])[1..] == events[1..] + [e];
      ReplaySnoc(OnChange(p, events[0].0, events[0].1), events[1..], e);
    }
  }

  /** Reference: what the region of `req` should show after `events`. */
  function Expected(p: Page, events: seq<(Req, Xhr)>, req: Req): string {
    match LastState(events, req)
    case Some(x) => Render(req, x.response)
    case None => Shown(p, req)
  }

  /** One more event changes the expected text of its own request only. */
  lemma ExpectedSnoc(p: Page, events: seq<(Req, Xhr)>, e: (Req, Xhr), req: Req)
    ensures Expected(p, events + [e], req)
            == if e.0 == req then Render(req, e.1.response) else Expected(p, events, req)
  {
    assert (events + [e])[..|events|] == events;
  }

  /**
   Each region shows its own request's latest response, whatever the other
   requests did in between, and is left alone until its request reports.
   */
  lemma {:induction false} RegionShowsLatest(p: Page, events: seq<(Req, Xhr)>, req: Req)
    ensures Shown(Replay(p, events), req) == Expected(p, events, req)
    decreases |events|
  {
    if |events| > 0 {
      var pre := events[..|events| - 1];
      var e := events[|events| - 1];
      assert events == pre + [e];
      RegionShowsLatest(p, pre, req);
      ReplaySnoc(p, pre, e);
      ExpectedSnoc(p, pre, e, req);
    }
  }

  /** The `Error:` entries of the events of completed, unsuccessful requests, in event order. */
  function FailureEntries(events: seq<(Req, Xhr)>): (e: seq<string>)
    ensures |e| == Failures(events)
    decreases |events|
  {
    if |events| == 0 then []
    else (if Failed(events[0].1) then [ErrorEntry(events[0].1.status)] else []) + FailureEntries(events[1..])
  }

  /** The log gains one `Error:` entry per event of a completed, unsuccessful request, in order. */
  lemma {:induction false} LogCountsFailures(p: Page, events: seq<(Req, Xhr)>)
    ensures Replay(p, events).log == p.log + FailureEntries(events)
    ensures |Replay(p, events).log| == |p.log| + Failures(events)
    ensures Replay(p, events).log[..|p.log|] == p.log
    decreases |events|
  {
    if |events| > 0 {
      var q := OnChange(p, events[0].0, events[0].1);
      LogCountsFailures(q, events[1..]);
      LogStep(p, events);
    }
  }

  /** The first event's entry, if any, comes before those of the later events. */
  lemma LogStep(p: Page, events: seq<(Req, Xhr)>)
    requires |events| > 0
    ensures OnChange(p, events[0].0, events[0].1).log + FailureEntries(events[1..])
            == p.log + FailureEntries(events)
  {
    var x := events[0].1;
    var q := OnChange(p, events[0].0, x);
    var mine := if Failed(x) then [ErrorEntry(x.status)] else [];
    var rest := FailureEntries(events[1..]);
    assert q.log == p.log + mine;
    assert FailureEntries(events) == mine + rest;
    Regroup(p.log, mine, rest, q.log, FailureEntries(events));
  }

  /** `(a + b) + c == a + (b + c)`, with both inner sums named. */
  lemma Regroup(a: seq<string>, b: seq<string>, c: seq<string>, ab: seq<string>, bc: seq<string>)
    requires ab == a + b && bc == b + c
    ensures ab + c == a + bc
  {
  }

  /** The page's requests: the description, and two generation streams. */
  const ChatPath: string := "/clamma"
  /**
   `xhr.timeout`: milliseconds each request may take.  Timers are not
   modelled, so no member uses it; it records the page's setting.
   */
  const RequestTimeout: nat := 60000

  /**
   Against the server's routing, the title request is answered with the
   model description and each chat request starts a generation session.
   */
  lemma PageRequestsRoute(c: Conn, descLen: nat)
    ensures ServerTxn(c, Some(DescPath), descLen, NoFault).reply == AskTx(descLen)
    ensures ServerTxn(c, Some(ChatPath), descLen, NoFault).reply == Proceed
    ensures StartQuery(WebQuery) in ServerTxn(c, Some(ChatPath), descLen, NoFault).actions
  {
    assert Some(ChatPath) != Some(DescPath) by {
      assert |ChatPath| != |DescPath|;
    }
  }
}

=== FILE: genpipe.dfy ===
/**
 The token ring of the web demo (`clamma_genpipe_t`) and its producer
 (`clamma_genpipe_rx`).  Generated text arrives from the inference thread
 through a pipe; the event loop copies each chunk it reads into a 2048-byte
 ring at `head`, and the connection's transmit callback drains it from `tail`.

 The ring is modelled as an immutable record.  Its queued bytes, the ones the
 transmit side has still to send, are `Contents(g)`: slot `(tail + k) % 2048`
 for `k < pending`.
 */
module GenPipe {
  import opened Common
  import opened RingMath

  /** `size_t` arithmetic wraps modulo this. */
  const SizeMod: int := 0x1_0000_0000_0000_0000
  /** The end-of-sequence token value. */
  const TokEos: byte := 2
  /** What an end-of-sequence token is stored as: `' '`. */
  const Space: byte := 32

  /** The `ts` pointer: no session yet, a live one, or one already destroyed. */
  datatype SessionRef = NoSession | Live | Destroyed

  /**
   One `clamma_genpipe_t`.  `hasClient` says whether `ss_client` is non-null,
   i.e. whether a server connection still listens to this ring.
   */
  datatype Ring = Ring(
    payload: seq<byte>,
    head: nat,
    tail: nat,
    pending: nat,
    total: nat,
    eomWhenEmpty: bool,
    hasClient: bool,
    session: SessionRef)

  /** The array has its declared size and both indices lie inside it. */
  predicate Shaped(g: Ring) {
    |g.payload| == Capacity && g.head < Capacity && g.tail < Capacity
  }

  /** The record invariant every rx and tx re-establishes. */
  predicate Valid(g: Ring) {
    Shaped(g) && g.pending == (g.head - g.tail) % Capacity
  }

  /** The bytes queued for transmission, oldest first. */
  function Contents(g: Ring): seq<byte>
    requires Valid(g)
  {
    seq(g.pending, k requires 0 <= k < g.pending => g.payload[(g.tail + k) % Capacity])
  }

  /** A ring as the stream framework hands it over: zero-filled, with a client attached. */
  function Fresh(session: SessionRef): (g: Ring)
    ensures Valid(g) && g.pending == 0 && g.total == 0 && g.hasClient
  {
    Ring(seq(Capacity, _ => 0), 0, 0, 0, 0, false, true, session)
  }

  /**
   `(head - tail) % sizeof(payload)` computed on `size_t`: the subtraction
   wraps modulo 2^64 before the reduction.  Because 2048 divides 2^64 the
   result is the mathematical remainder modulo 2048.
   */
  function Distance(head: nat, tail: nat): (d: nat)
    requires head < SizeMod && tail < SizeMod
    ensures d == (head - tail) % Capacity
  {
    ((head - tail) % SizeMod) % Capacity
  }

  /**
   The bytes one rx call queues from a chunk: everything up to the first
   end-of-sequence token, with that token itself queued as a space; whatever
   follows it in the same chunk is dropped.
   */
  function Accept(buf: seq<byte>): (a: seq<byte>)
    ensures |a| <= |buf|
    ensures TokEos !in buf ==> a == buf
    ensures TokEos in buf ==>
              && 0 < |a|
              && a[|a| - 1] == Space
              && buf[|a| - 1] == TokEos
              && a[..|a| - 1] == buf[..|a| - 1]
              && TokEos !in a[..|a| - 1]
  {
    if |buf| == 0 then []
    else if buf[0] == TokEos then [Space]
    else [buf[0]] + Accept(buf[1..])
  }

  /**
   `after` is `before` with `data` written at consecutive slots from `h`
   onwards (when it fits in the ring) and every slot beyond the written
   stretch left alone.
   */
  predicate Wrote(before: seq<byte>, h: nat, data: seq<byte>, after: seq<byte>)
    requires |before| == Capacity && |after| == Capacity
  {
    && (|data| <= Capacity ==>
          forall j :: 0 <= j < |data| ==> after[(h + j) % Capacity] == data[j])
    && (forall p :: 0 <= p < Capacity && Offset(h, p) >= |data| ==> after[p] == before[p])
  }

  /** Writing one byte at `h` is a one-byte stretch. */
  lemma WroteOne(h: nat, before: seq<byte>, x: byte)
    requires h < Capacity && |before| == Capacity
    ensures Wrote(before, h, [x], before[h := x])
  {
    forall p | 0 <= p < Capacity && Offset(h, p) >= 1
      ensures p != h
    {
    }
  }

  /**
   The copying loop of rx: each byte goes to `payload[head]` and `head`
   advances round the ring; an end-of-sequence token is stored as a space,
   sets `eomWhenEmpty` and ends the loop.
   */
  function Absorb(g: Ring, buf: seq<byte>): (r: Ring)
    requires Shaped(g)
    ensures Shaped(r)
    ensures r.tail == g.tail && r.pending == g.pending && r.total == g.total
    ensures r.hasClient == g.hasClient && r.session == g.session
    ensures r.eomWhenEmpty == (g.eomWhenEmpty || TokEos in buf)
    decreases |buf|
  {
    if |buf| == 0 then g
    else if buf[0] == TokEos then
      g.(eomWhenEmpty := true,
         payload := g.payload[g.head := Space],
         head := (g.head + 1) % Capacity)
    else
      assert TokEos in buf <==> TokEos in buf[1..] by {
        assert buf == [buf[0]] + buf[1..];
      }
      Absorb(g.(payload := g.payload[g.head := buf[0]], head := (g.head + 1) % Capacity), buf[1..])
  }

  /** The copying loop moves `head` past the accepted bytes. */
  lemma {:induction false} AbsorbHead(g: Ring, buf: seq<byte>)
    requires Shaped(g)
    ensures Absorb(g, buf).head == (g.head + |Accept(buf)|) % Capacity
    decreases |buf|
  {
    if |buf| > 0 && buf[0] != TokEos {
      var g' := g.(payload := g.payload[g.head := buf[0]], head := (g.head + 1) % Capacity);
      AbsorbHead(g', buf[1..]);
      assert |Accept(buf)| == 1 + |Accept(buf[1..])|;
      NextThen(g.head, |Accept(buf[1..])|);
    }
  }

  /**
   The copying loop writes the accepted bytes at consecutive slots from
   `head` and leaves the rest of the array alone.
   */
  lemma {:induction false} AbsorbWrites(g: Ring, buf: seq<byte>)
    requires Shaped(g)
    ensures Wrote(g.payload, g.head, Accept(buf), Absorb(g, buf).payload)
    decreases |buf|
  {
    if |buf| == 0 {
    } else if buf[0] == TokEos {
      assert Accept(buf) == [Space];
      WroteOne(g.head, g.payload, Space);
    } else {
      var g' := g.(payload := g.payload[g.head := buf[0]], head := (g.head + 1) % Capacity);
      AbsorbWrites(g', buf[1..]);
      AbsorbWritesNext(g, buf);
    }
  }

  /** One byte of the copying loop in front of the rest of the chunk. */
  lemma AbsorbWritesNext(g: Ring, buf: seq<byte>)
    requires Shaped(g) && |buf| > 0 && buf[0] != TokEos
    requires Wrote(g.payload[g.head := buf[0]], (g.head + 1) % Capacity, Accept(buf[1..]),
                   Absorb(g.(payload := g.payload[g.head := buf[0]], head := (g.head + 1) % Capacity), buf[1..]).payload)
    ensures Wrote(g.payload, g.head, Accept(buf), Absorb(g, buf).payload)
  {
    assert Accept(buf) == [buf[0]] + Accept(buf[1..]);
    WroteStep(g.head, g.payload, buf[0], Accept(buf[1..]), Absorb(g, buf).payload);
  }

  /** Writing `x` at `h` and then `rest` after it is writing `[x] + rest` at `h`. */
  lemma WroteStep(h: nat, before: seq<byte>, x: byte, rest: seq<byte>, out: seq<byte>)
    requires h < Capacity && |before| == Capacity && |out| == Capacity
    requires Wrote(before[h := x], (h + 1) % Capacity, rest, out)
    ensures Wrote(before, h, [x] + rest, out)
  {
    if |[x] + rest| <= Capacity {
      forall j | 0 <= j < |[x] + rest|
        ensures out[(h + j) % Capacity] == ([x] + rest)[j]
      {
        if j == 0 {
          OffsetBehind(h);
        } else {
          NextThen(h, j - 1);
        }
      }
    }
    forall p | 0 <= p < Capacity && Offset(h, p) >= |[x] + rest|
      ensures out[p] == before[p]
    {
      OffsetNext(h, p);
    }
  }

  /** What one rx call returns besides the updated ring: a transmit request, if any. */
  datatype RxResult = RxResult(ring: Ring, request: Option<nat>)

  /**
   `clamma_genpipe_rx`: queue a chunk read from the pipe, recompute
   `pending`, and ask for transmission of `pending` bytes when there is
   something to send and a client to send it to.  No check guards against
   overrunning unread bytes (see `RxOverrun`).
   */
  function Rx(g: Ring, buf: seq<byte>): (r: RxResult)
    requires Shaped(g)
    ensures Valid(r.ring)
    ensures r.ring.head == (g.head + |Accept(buf)|) % Capacity
    ensures r.ring.tail == g.tail && r.ring.total == g.total
    ensures r.ring.hasClient == g.hasClient && r.ring.session == g.session
    ensures r.ring.eomWhenEmpty == (g.eomWhenEmpty || TokEos in buf)
    ensures Wrote(g.payload, g.head, Accept(buf), r.ring.payload)
    ensures r.request.Some? <==> r.ring.pending != 0 && g.hasClient
    ensures r.request.Some? ==> r.request.value == r.ring.pending
  {
    AbsorbHead(g, buf);
    AbsorbWrites(g, buf);
    var a := Absorb(g, buf);
    var w := a.(pending := Distance(a.head, a.tail));
    RxResult(w, if w.pending != 0 && w.hasClient then Some(w.pending) else None)
  }

  /**
   FIFO for the producer: while the queued bytes stay below the capacity,
   rx appends exactly the accepted bytes behind the ones already queued.
   */
  lemma RxAppends(g: Ring, buf: seq<byte>)
    requires Valid(g)
    requires g.pending + |Accept(buf)| < Capacity
    ensures Contents(Rx(g, buf).ring) == Contents(g) + Accept(buf)
    ensures Rx(g, buf).ring.pending == g.pending + |Accept(buf)|
  {
    WriteAppends(g, Accept(buf), Rx(g, buf).ring);
  }

  /** A ring whose head moved past a written stretch `a` queues `a` after its old contents. */
  lemma WriteAppends(g: Ring, a: seq<byte>, w: Ring)
    requires Valid(g) && Valid(w)
    requires g.pending + |a| < Capacity
    requires w.head == (g.head + |a|) % Capacity && w.tail == g.tail
    requires Wrote(g.payload, g.head, a, w.payload)
    ensures Contents(w) == Contents(g) + a
    ensures w.pending == g.pending + |a|
  {
    PendingGrows(g.head, g.tail, g.pending, |a|, w.head);
    AppendContents(g, a, w);
  }

  /** Writing `a` at `head` of a ring with room for it appends `a` to its contents. */
  lemma AppendContents(g: Ring, a: seq<byte>, w: Ring)
    requires Valid(g) && Valid(w)
    requires g.pending + |a| < Capacity
    requires w.tail == g.tail && w.pending == g.pending + |a|
    requires Wrote(g.payload, g.head, a, w.payload)
    ensures Contents(w) == Contents(g) + a
  {
    forall k | 0 <= k < w.pending
      ensures Contents(w)[k] == (Contents(g) + a)[k]
    {
      if k < g.pending {
        KeptSlot(g, a, w, k);
      } else {
        NewSlot(g, a, w, k - g.pending);
      }
    }
  }

  /** A byte queued before the write is still in its slot afterwards. */
  lemma KeptSlot(g: Ring, a: seq<byte>, w: Ring, k: nat)
    requires Valid(g) && |w.payload| == Capacity
    requires g.pending + |a| < Capacity && k < g.pending
    requires Wrote(g.payload, g.head, a, w.payload)
    ensures w.payload[(g.tail + k) % Capacity] == Contents(g)[k]
  {
    var p := (g.tail + k) % Capacity;
    QueuedSlot(g.head, g.tail, g.pending, k);
    assert Offset(g.head, p) >= |a|;
  }

  /** Byte `j` of the written data sits `pending + j` slots after the tail. */
  lemma NewSlot(g: Ring, a: seq<byte>, w: Ring, j: nat)
    requires Valid(g) && |w.payload| == Capacity
    requires g.pending + |a| < Capacity && j < |a|
    requires Wrote(g.payload, g.head, a, w.payload)
    ensures w.payload[(g.tail + g.pending + j) % Capacity] == a[j]
  {
    AppendedSlot(g.head, g.tail, g.pending, j);
  }

  /**
   Without the capacity precondition rx loses data: queueing bytes until
   exactly 2048 are outstanding makes a full ring look empty.
   */
  lemma RxOverrun(g: Ring, buf: seq<byte>)
    requires Valid(g)
    requires g.pending + |Accept(buf)| == Capacity
    ensures Rx(g, buf).ring.pending == 0
    ensures Rx(g, buf).request == None
  {
    var w := Rx(g, buf).ring;
    PendingGrows(g.head, g.tail, g.pending, |Accept(buf)|, w.head);
  }
}

=== FILE: options.dfy ===
/**
 The command-line parser shared by `clamma-gen`, `clamma-gen-multi` and
 `clamma-chat`.  `argv[1]` is the checkpoint; from `argv[2]` on the arguments
 come in pairs `-x value`, where `x` is one letter from the program's own
 set.  Any deviation prints the usage text and exits with status 1.  A letter
 given twice keeps the value of its last pair.

 Values stay the text they were given as; the numeric conversions the
 programs apply afterwards are not modelled.
 */
module Options {
  import opened Common

  /** The three command-line programs. */
  datatype App = Gen | GenMulti | Chat

  /** The option letters each program's `switch` accepts. */
  function Letters(app: App): set<char> {
    match app
    case Gen => {'t', 'p', 's', 'n', 'y', 'i', 'z', 'm', 'h'}
    case GenMulti => {'t', 'p', 's', 'n', 'y', 'i', 'z', 'm', 'c', 'h'}
    case Chat => {'t', 'p', 's', 'n', 'y', 'i', 'z', 'h'}
  }

  /** The exit status after the usage text. */
  const UsageStatus: int := 1

  /**
   The option letters in the order the usage text lists them; the text
   documents exactly the letters the parser accepts.
   */
  function UsageLetters(app: App): (u: seq<char>)
    ensures forall c :: c in u <==> c in Letters(app)
  {
    match app
    case Gen => "tpsnziyhm"
    case GenMulti => "tpsnziyhmc"
    case Chat => "tpsnzhiy"
  }

  /** An option token: exactly two characters, the first a dash. */
  predicate TokenShaped(tok: string) {
    |tok| == 2 && tok[0] == '-'
  }

  /** A token the program accepts. */
  predicate TokenOk(app: App, tok: string) {
    TokenShaped(tok) && tok[1] in Letters(app)
  }

  /** The argument at `j` is an accepted token and a value follows it. */
  predicate PairOk(app: App, argv: seq<string>, j: nat)
    requires j < |argv|
  {
    j + 1 < |argv| && TokenOk(app, argv[j])
  }

  /** Every argument from index `i` on at an even distance is an accepted token followed by a value. */
  predicate PairsOk(app: App, argv: seq<string>, i: nat) {
    forall j: nat :: i <= j < |argv| && (j - i) % 2 == 0 ==> PairOk(app, argv, j)
  }

  /** A command line the program accepts: a checkpoint, then well-formed pairs. */
  predicate ArgsOk(app: App, argv: seq<string>) {
    |argv| >= 2 && PairsOk(app, argv, 2)
  }

  /** The parser's verdict: usage, or the checkpoint and the last value of each letter given. */
  datatype Outcome = Usage | Parsed(checkpoint: string, values: map<char, string>)

  /** The pair loop, from index `i`, with the values collected so far. */
  function ParseFrom(app: App, argv: seq<string>, i: nat, acc: map<char, string>): (r: Outcome)
    requires 2 <= |argv|
    ensures r.Usage? <==> !PairsOk(app, argv, i)
    ensures r.Parsed? ==> r.checkpoint == argv[1] && r.values.Keys <= acc.Keys + Letters(app)
    decreases |argv| - i
  {
    if i >= |argv| then Parsed(argv[1], acc)
    else if i + 1 >= |argv| || !TokenShaped(argv[i]) then
      assert !PairOk(app, argv, i);
      Usage
    else if argv[i][1] !in Letters(app) then
      assert !PairOk(app, argv, i);
      Usage
    else
      var r := ParseFrom(app, argv, i + 2, acc[argv[i][1] := argv[i + 1]]);
      assert PairsOk(app, argv, i) <==> PairsOk(app, argv, i + 2) by {
        if PairsOk(app, argv, i + 2) {
          forall j: nat | i <= j < |argv| && (j - i) % 2 == 0
            ensures PairOk(app, argv, j)
          {
            if j != i {
              assert j >= i + 2 && (j - (i + 2)) % 2 == 0;
            }
          }
        }
        if PairsOk(app, argv, i) {
          forall j: nat | i + 2 <= j < |argv| && (j - (i + 2)) % 2 == 0
            ensures PairOk(app, argv, j)
          {
            assert i <= j && (j - i) % 2 == 0;
          }
        }
      }
      r
  }

  /** The option loop of each program's `main`. */
  function Parse(app: App, argv: seq<string>): (r: Outcome)
    ensures r.Usage? <==> !ArgsOk(app, argv)
    ensures r.Parsed? ==> r.checkpoint == argv[1] && r.values.Keys <= Letters(app)
  {
    if |argv| < 2 then Usage else ParseFrom(app, argv, 2, map[])
  }

  /** An accepted command line has an even number of arguments: no option lacks its value. */
  lemma AcceptedIsEven(app: App, argv: seq<string>)
    requires ArgsOk(app, argv)
    ensures |argv| % 2 == 0
  {
    var j := |argv| - 1;
    assert 2 <= j && (j - 2) % 2 == 0 ==> PairOk(app, argv, j);
  }

  /** `m[c]` as an optional value. */
  function Lookup(m: map<char, string>, c: char): Option<string> {
    if c in m then Some(m[c]) else None
  }

  /**
   Reference reading of a command line: scanning the pairs that start below
   index `n` from the end, the value of the first `-c` found.
   */
  function LastGiven(argv: seq<string>, c: char, n: nat): Option<string>
    requires n <= |argv|
    decreases n
  {
    if n < 4 then None
    else if argv[n - 2] == ['-', c] then Some(argv[n - 1])
    else LastGiven(argv, c, n - 2)
  }

  /** The reference reading looks only at the arguments below `n`. */
  lemma {:induction false} LastGivenPrefix(argv: seq<string>, more: seq<string>, c: char, n: nat)
    requires n <= |argv|
    ensures LastGiven(argv + more, c, n) == LastGiven(argv, c, n)
    decreases n
  {
    if n >= 4 {
      assert (argv + more)[n - 2] == argv[n - 2] && (argv + more)[n - 1] == argv[n - 1];
      LastGivenPrefix(argv, more, c, n - 2);
    }
  }

  /** The effect of one more pair on a parse outcome. */
  function Extend(r: Outcome, app: App, tok: string, v: string): Outcome {
    if r.Parsed? && TokenOk(app, tok) then Parsed(r.checkpoint, r.values[tok[1] := v])
    else Usage
  }

  lemma {:induction false} ParseFromAppend(app: App, argv: seq<string>, tok: string, v: string,
                                           i: nat, acc: map<char, string>)
    requires 2 <= i <= |argv|
    ensures ParseFrom(app, argv + [tok, v], i, acc) == Extend(ParseFrom(app, argv, i, acc), app, tok, v)
    decreases |argv| - i
  {
    var longer := argv + [tok, v];
    if i == |argv| {
      assert longer[i] == tok && longer[i + 1] == v;
    } else if i + 1 == |argv| {
      assert longer[i] == argv[i];
    } else {
      assert longer[i] == argv[i] && longer[i + 1] == argv[i + 1];
      if TokenShaped(argv[i]) && argv[i][1] in Letters(app) {
        ParseFromAppend(app, argv, tok, v, i + 2, acc[argv[i][1] := argv[i + 1]]);
      }
    }
  }

  /**
   Appending a pair to a command line: it parses exactly when the line did
   and the new token is accepted, and the new value replaces any earlier one
   for the same letter.
   */
  lemma AppendPair(app: App, argv: seq<string>, tok: string, v: string)
    requires |argv| >= 2
    ensures Parse(app, argv + [tok, v]) == Extend(Parse(app, argv), app, tok, v)
  {
    ParseFromAppend(app, argv, tok, v, 2, map[]);
  }

  /** A letter given twice in a row keeps the second value. */
  lemma LastValueWins(app: App, argv: seq<string>, c: char, first: string, second: string)
    requires ArgsOk(app, argv) && c in Letters(app)
    ensures Parse(app, argv + [['-', c], first] + [['-', c], second]).Parsed?
    ensures c in Parse(app, argv + [['-', c], first] + [['-', c], second]).values
    ensures Parse(app, argv + [['-', c], first] + [['-', c], second]).values[c] == second
  {
    AppendPair(app, argv, ['-', c], first);
    AppendPair(app, argv + [['-', c], first], ['-', c], second);
  }

  /**
   The parsed values agree with the reference reading: a letter has a value
   exactly when some pair gives it, and the value is that of its last pair.
   */
  lemma {:induction false} ParseValues(app: App, argv: seq<string>)
    requires Parse(app, argv).Parsed?
    ensures forall c :: Lookup(Parse(app, argv).values, c) == LastGiven(argv, c, |argv|)
    decreases |argv|
  {
    AcceptedIsEven(app, argv);
    var n := |argv|;
    if n > 2 {
      var pre := argv[..n - 2];
      var tok, v := argv[n - 2], argv[n - 1];
      assert argv == pre + [tok, v];
      AppendPair(app, pre, tok, v);
      ParseValues(app, pre);
      assert tok == ['-', tok[1]];
      forall c
        ensures Lookup(Parse(app, argv).values, c) == LastGiven(argv, c, n)
      {
        LastGivenPrefix(pre, [tok, v], c, n - 2);
      }
    }
  }
}

=== FILE: pipeline.dfy ===
/**
 A generation connection's ring over time.  On the event loop two things
 happen to it, one at a time: a chunk read from the pipe is queued (rx), or
 the server offers a transmit window and the ring is drained into it (tx).
 `Play` runs a sequence of such events; the lemmas here say that what leaves
 the ring is exactly what was accepted into it, in order.
 */
module Pipeline {
  import opened Common
  import opened RingMath
  import opened GenPipe
  import opened ClammaSrv

  /** One event on the ring: a chunk from the pipe, or a transmit window of the given size. */
  datatype Event = Chunk(bytes: seq<byte>) | Window(size: nat)

  /**
   The outcome of a run: the ring afterwards, the bytes sent in order, and
   how many rx calls asked for transmission.
   */
  datatype Run = Run(ring: Ring, sent: seq<byte>, rxAsks: nat)

  /** The bytes a transmit frame carries; none when nothing is sent. */
  function Payload(f: Frame): seq<byte> {
    if f.Frame? then f.data else []
  }

  /** One event applied to the ring. */
  function Step(g: Ring, e: Event): (r: Run)
    requires Valid(g)
    ensures Valid(r.ring)
    ensures r.ring.hasClient == g.hasClient
  {
    match e
    case Chunk(b) =>
      var x := Rx(g, b);
      Run(x.ring, [], if x.request.Some? then 1 else 0)
    case Window(n) =>
      var t := RingTx(g, n);
      Run(t.ring, Payload(t.frame), 0)
  }

  /** A sequence of events applied in order. */
  function Play(g: Ring, events: seq<Event>): (r: Run)
    requires Valid(g)
    ensures Valid(r.ring)
    ensures r.ring.hasClient == g.hasClient
    decreases |events|
  {
    if |events| == 0 then Run(g, [], 0)
    else
      var s := Step(g, events[0]);
      var rest := Play(s.ring, events[1..]);
      Run(rest.ring, s.sent + rest.sent, s.rxAsks + rest.rxAsks)
  }

  /** Everything the chunks of a run put into the ring, after end-of-sequence handling. */
  function Fed(events: seq<Event>): seq<byte>
    decreases |events|
  {
    if |events| == 0 then []
    else (if events[0].Chunk? then Accept(events[0].bytes) else []) + Fed(events[1..])
  }

  /** Whether some chunk of the run carried an end-of-sequence token. */
  predicate SawEos(events: seq<Event>)
  {
    exists i :: 0 <= i < |events| && events[i].Chunk? && TokEos in events[i].bytes
  }

  /**
   The ring is never asked to hold a full turn: before every chunk, the
   queued bytes plus the chunk's accepted bytes stay below 2048.  The source
   does not check this; it is the condition under which nothing is lost.
   */
  predicate Fits(g: Ring, events: seq<Event>)
    requires Valid(g)
    decreases |events|
  {
    if |events| == 0 then true
    else
      && (events[0].Chunk? ==> g.pending + |Accept(events[0].bytes)| < Capacity)
      && Fits(Step(g, events[0]).ring, events[1..])
  }

  /**
   FIFO: what was queued before plus what the run fed in equals what the
   run sent plus what is still queued; and `total` counts the bytes sent.
   */
  lemma {:induction false} Fifo(g: Ring, events: seq<Event>)
    requires Valid(g) && Fits(g, events)
    ensures Contents(g) + Fed(events) == Play(g, events).sent + Contents(Play(g, events).ring)
    ensures Play(g, events).ring.total == g.total + |Play(g, events).sent|
    decreases |events|
  {
    if |events| > 0 {
      var s := Step(g, events[0]);
      var rest := Play(s.ring, events[1..]);
      assert Play(g, events) == Run(rest.ring, s.sent + rest.sent, s.rxAsks + rest.rxAsks);
      Fifo(s.ring, events[1..]);
      StepFifo(g, events[0]);
      assert Fed(events) == Fed([events[0]]) + Fed(events[1..]);
      Splice(Contents(g), Fed([events[0]]), Fed(events[1..]), s.sent, Contents(s.ring),
             rest.sent, Contents(rest.ring));
    }
  }

  /** Chaining two FIFO steps: the middle queue cancels out. */
  lemma Splice<T>(q0: seq<T>, in1: seq<T>, in2: seq<T>, out1: seq<T>, q1: seq<T>, out2: seq<T>, q2: seq<T>)
    requires q0 + in1 == out1 + q1
    requires q1 + in2 == out2 + q2
    ensures q0 + (in1 + in2) == (out1 + out2) + q2
  {
    calc {
      q0 + (in1 + in2);
      (q0 + in1) + in2;
      (out1 + q1) + in2;
      out1 + (q1 + in2);
      out1 + (out2 + q2);
    }
  }

  /** FIFO for a single event: it moves bytes from the ring's front to the output or feeds its back. */
  lemma StepFifo(g: Ring, e: Event)
    requires Valid(g)
    requires e.Chunk? ==> g.pending + |Accept(e.bytes)| < Capacity
    ensures Fed([e]) == (if e.Chunk? then Accept(e.bytes) else [])
    ensures Contents(g) + Fed([e]) == Step(g, e).sent + Contents(Step(g, e).ring)
    ensures Step(g, e).ring.total == g.total + |Step(g, e).sent|
  {
    assert Fed([e]) == (if e.Chunk? then Accept(e.bytes) else []) + Fed([]);
    match e
    case Chunk(b) =>
      RxAppends(g, b);
    case Window(n) =>
      WindowFifo(g, n);
  }

  /** A transmit step sends a prefix of the contents and keeps the rest. */
  lemma WindowFifo(g: Ring, n: nat)
    requires Valid(g)
    ensures Contents(g) == Step(g, Window(n)).sent + Contents(Step(g, Window(n)).ring)
    ensures Step(g, Window(n)).ring.total == g.total + |Step(g, Window(n)).sent|
  {
    var t := RingTx(g, n);
    if t.frame.Frame? {
      var m := Min(n, g.pending);
      assert Contents(g) == Contents(g)[..m] + Contents(g)[m..];
    }
  }

  /** From a fresh ring, the bytes sent and those still queued are exactly the bytes fed, in order. */
  lemma FreshFifo(events: seq<Event>, session: SessionRef)
    requires Fits(Fresh(session), events)
    ensures Play(Fresh(session), events).sent + Contents(Play(Fresh(session), events).ring) == Fed(events)
    ensures Play(Fresh(session), events).ring.total == |Play(Fresh(session), events).sent|
  {
    Fifo(Fresh(session), events);
    assert Contents(Fresh(session)) == [];
  }

  /**
   Start of message: on a ring that started fresh, a frame carries the SOM
   flag exactly when no byte has been sent before it.
   */
  lemma SomMarksFirstFrame(events: seq<Event>, session: SessionRef, window: nat)
    requires Fits(Fresh(session), events)
    requires RingTx(Play(Fresh(session), events).ring, window).frame.Frame?
    ensures RingTx(Play(Fresh(session), events).ring, window).frame.som
            <==> Play(Fresh(session), events).sent == []
  {
    FreshFifo(events, session);
  }

  /** `eomWhenEmpty` is set by a run exactly when it was set before or a chunk carried an end-of-sequence token. */
  lemma {:induction false} EomFlagRecordsEos(g: Ring, events: seq<Event>)
    requires Valid(g)
    ensures Play(g, events).ring.eomWhenEmpty <==> g.eomWhenEmpty || SawEos(events)
    decreases |events|
  {
    if |events| > 0 {
      var s := Step(g, events[0]);
      EomFlagRecordsEos(s.ring, events[1..]);
      if SawEos(events[1..]) {
        var i :| 0 <= i < |events[1..]| && events[1..][i].Chunk? && TokEos in events[1..][i].bytes;
        assert events[i + 1] == events[1..][i];
      }
      if SawEos(events) && !(events[0].Chunk? && TokEos in events[0].bytes) {
        var i :| 0 <= i < |events| && events[i].Chunk? && TokEos in events[i].bytes;
        assert events[1..][i - 1] == events[i];
      }
    }
  }

  /**
   End of message: on a ring that started fresh, a frame carries the EOM flag
   only once every byte fed so far has been sent and an end-of-sequence token
   has arrived.
   */
  lemma EomMeansComplete(events: seq<Event>, session: SessionRef, window: nat)
    requires Fits(Fresh(session), events)
    requires RingTx(Play(Fresh(session), events).ring, window).frame.Frame?
    requires RingTx(Play(Fresh(session), events).ring, window).frame.eom
    ensures Play(Fresh(session), events + [Window(window)]).sent == Fed(events + [Window(window)])
    ensures SawEos(events)
  {
    var all := events + [Window(window)];
    EomFlagRecordsEos(Fresh(session), events);
    FitsExtend(Fresh(session), events, Window(window));
    FreshFifo(all, session);
    PlaySnoc(Fresh(session), events, Window(window));
    assert Contents(Play(Fresh(session), all).ring) == [];
  }

  /** Playing one more event is playing it on the ring the run left. */
  lemma {:induction false} PlaySnoc(g: Ring, events: seq<Event>, e: Event)
    requires Valid(g)
    ensures Play(g, events + [e]).ring == Step(Play(g, events).ring, e).ring
    ensures Play(g, events + [e]).sent == Play(g, events).sent + Step(Play(g, events).ring, e).sent
    decreases |events|
  {
    if |events| == 0 {
      assert events + [e] == [e];
    } else {
      var s := Step(g, events[0]);
      var longer := events + [e];
      assert longer[0] == events[0] && longer[1..] == events[1..] + [e];
      PlaySnoc(s.ring, events[1..], e);
      var shorter := Play(s.ring, events[1..]);
      Assoc(s.sent, shorter.sent, Step(shorter.ring, e).sent);
    }
  }

  /** Regrouping a concatenation; kept apart so the proof of `PlaySnoc` stays small. */
  lemma Assoc<T>(a: seq<T>, b: seq<T>, c: seq<T>)
    ensures a + (b + c) == (a + b) + c
  {
  }

  /** A transmit window never breaks `Fits`. */
  lemma {:induction false} FitsExtend(g: Ring, events: seq<Event>, e: Event)
    requires Valid(g) && Fits(g, events) && e.Window?
    ensures Fits(g, events + [e])
    decreases |events|
  {
    if |events| == 0 {
      assert events + [e] == [e];
    } else {
      var s := Step(g, events[0]);
      assert (events + [e])[1..] == events[1..] + [e];
      FitsExtend(s.ring, events[1..], e);
    }
  }

  /** A ring with no client attached never asks for transmission, whatever it receives. */
  lemma {:induction false} DetachedRingIsSilent(g: Ring, events: seq<Event>)
    requires Valid(g) && !g.hasClient
    ensures Play(g, events).rxAsks == 0
    decreases |events|
  {
    if |events| > 0 {
      DetachedRingIsSilent(Step(g, events[0]).ring, events[1..]);
    }
  }

  /**
   Teardown: once a generation connection has seen the disconnect
   transition, its ring keeps absorbing pipe output but asks for no more
   transmission.
   */
  lemma DisconnectSilencesRing(c: Conn, events: seq<Event>)
    requires ConnValid(c) && c.inward.Some?
    ensures Play(Disconnected(c).conn.inward.value, events).rxAsks == 0
  {
    DetachedRingIsSilent(Disconnected(c).conn.inward.value, events);
  }
}

=== FILE: query.dfy ===
/**
 What the front ends hand to the inference library: the settings of one
 query.  Numeric and float settings stay as the text they came from; the
 conversion the program applies to that text (`atoi`, `atol`, `atof`) is not
 modelled.
 */
module Query {

  /**
   Where a setting comes from: left zero or NULL, a literal of the program
   (`"256"`, `"1.0"`, `"tokenizer.bin"`), a command-line argument, or text the
   user typed on standard input.
   */
  datatype Value = Unset | Const(literal: string) | Arg(text: string) | Typed(text: string)

  /**
   The per-query fields of `clamma_txf_info_t`: those the library reads at
   session construction and query, and ignores at transformer construction.
   */
  datatype QueryInfo = QueryInfo(
    system: Value,
    prompt: Value,
    limit: Value,
    temperature: Value,
    topp: Value,
    seed: Value)
}

=== FILE: ringmath.dfy ===
/**
 Index arithmetic of the token ring: positions are taken modulo the ring's
 capacity, 2048.  Each fact the ring proofs need is stated here once, on
 plain integers, so that the ring proofs themselves stay small.
 */
module RingMath {

  /** `sizeof(payload)`: the ring's capacity in bytes. */
  const Capacity: nat := 2048

  /** How far slot `p` lies ahead of index `h`, going round the ring. */
  function Offset(h: int, p: int): nat {
    (p - h) % Capacity
  }

  /** Advancing `head` by one and then by `j` is advancing it by `j + 1`. */
  lemma NextThen(h: nat, j: nat)
    requires h < Capacity
    ensures ((h + 1) % Capacity + j) % Capacity == (h + 1 + j) % Capacity
  {
    if h + 1 == Capacity {
      assert h + 1 + j == j + Capacity;
    }
  }

  /** Seen from the advanced head, every other slot is one step nearer. */
  lemma OffsetNext(h: nat, p: nat)
    requires h < Capacity && p < Capacity && p != h
    ensures Offset((h + 1) % Capacity, p) == Offset(h, p) - 1
  {
  }

  /** Seen from the advanced head, the slot just written is the farthest. */
  lemma OffsetBehind(h: nat)
    requires h < Capacity
    ensures Offset((h + 1) % Capacity, h) == Capacity - 1
  {
  }

  /** Queueing `m` more bytes on a ring holding `pending` grows `pending` by `m`, short of a full turn. */
  lemma PendingGrows(head: nat, tail: nat, pending: nat, m: nat, head': nat)
    requires head < Capacity && tail < Capacity
    requires pending == (head - tail) % Capacity
    requires pending + m <= Capacity
    requires head' == (head + m) % Capacity
    ensures (head' - tail) % Capacity == (pending + m) % Capacity
    ensures pending + m < Capacity ==> (head' - tail) % Capacity == pending + m
    ensures pending + m == Capacity ==> head' == tail
  {
    if head + m >= Capacity {
      assert head' == head + m - Capacity;
    }
  }

  /** The `k`-th queued byte lies `Capacity + k - pending` slots ahead of `head`. */
  lemma QueuedSlot(head: nat, tail: nat, pending: nat, k: nat)
    requires head < Capacity && tail < Capacity
    requires pending == (head - tail) % Capacity
    requires k < pending
    ensures Offset(head, (tail + k) % Capacity) == Capacity + k - pending
  {
  }

  /** The slot `pending + j` after `tail` is the slot `j` after `head`. */
  lemma AppendedSlot(head: nat, tail: nat, pending: nat, j: nat)
    requires head < Capacity && tail < Capacity
    requires pending == (head - tail) % Capacity
    requires pending + j < Capacity
    ensures (tail + pending + j) % Capacity == (head + j) % Capacity
  {
  }

  /** Taking `n` queued bytes off the tail leaves `pending - n`. */
  lemma PendingShrinks(head: nat, tail: nat, pending: nat, n: nat, tail': nat)
    requires head < Capacity && tail < Capacity
    requires pending == (head - tail) % Capacity
    requires n <= pending
    requires tail' == (tail + n) % Capacity
    ensures (head - tail') % Capacity == pending - n
  {
    if tail + n >= Capacity {
      assert tail' == tail + n - Capacity;
    }
  }

  /** After the tail moves on by `n`, the `k`-th slot is the old `(n + k)`-th. */
  lemma DrainedSlot(tail: nat, n: nat, k: nat)
    requires tail < Capacity && n < Capacity
    ensures ((tail + n) % Capacity + k) % Capacity == (tail + n + k) % Capacity
  {
    if tail + n >= Capacity {
      assert (tail + n) % Capacity == tail + n - Capacity;
      assert tail + n + k == (tail + n - Capacity + k) + Capacity;
    }
  }

  /** A copy that runs past the end of the array continues at slot 0. */
  lemma WrappedSlot(tail: nat, k: nat)
    requires tail < Capacity && Capacity <= tail + k < 2 * Capacity
    ensures (tail + k) % Capacity == tail + k - Capacity
  {
  }

  /** A copy that stays inside the array needs no reduction. */
  lemma UnwrappedSlot(tail: nat, k: nat)
    requires tail + k < Capacity
    ensures (tail + k) % Capacity == tail + k
  {
  }
}

=== FILE: srv.dfy ===
/**
 The web server side of the demo (`clamma_srv_t`): the transmit callback that
 drains a connection's ring into HTTP body chunks, and the two connection
 state transitions that route a request and tear a connection down.

 Calls into the stream framework and the inference library are not run; they
 appear as `Action`s the transition asks for, and the success or failure of
 the setup calls is an input (`SetupFault`).
 */
module ClammaSrv {
  import opened Common
  import opened GenPipe
  import opened RingMath
  import opened Query

  /** What the transmit callback hands back: nothing to send, or a chunk with its framing flags. */
  datatype Frame = DontSend | Frame(data: seq<byte>, som: bool, eom: bool)

  /** A transmit step: the ring afterwards, the frame, and a request for more transmission, if any. */
  datatype TxResult = TxResult(ring: Ring, frame: Frame, request: Option<nat>)

  function Min(a: nat, b: nat): nat {
    if a < b then a else b
  }

  /**
   The two `memcpy` branches of the transmit callback: copy `n` bytes from
   `tail`, splitting the copy when it runs past the end of the array, and
   give the new `tail`.
   */
  function Copy(g: Ring, n: nat): (r: (seq<byte>, nat))
    requires Valid(g) && n <= g.pending
    ensures r.0 == Contents(g)[..n]
    ensures r.1 == (g.tail + n) % Capacity
  {
    if g.tail + n > Capacity then
      var b := Capacity - g.tail;
      WrappedCopy(g, n);
      (g.payload[g.tail..] + g.payload[..n - b], n - b)
    else
      StraightCopy(g, n);
      (g.payload[g.tail..g.tail + n], (g.tail + n) % Capacity)
  }

  /** The split copy: the bytes up to the end of the array, then those from its start. */
  lemma WrappedCopy(g: Ring, n: nat)
    requires Valid(g) && n <= g.pending && g.tail + n > Capacity
    ensures g.payload[g.tail..] + g.payload[..n - (Capacity - g.tail)] == Contents(g)[..n]
  {
    var b := Capacity - g.tail;
    var data := g.payload[g.tail..] + g.payload[..n - b];
    forall k | 0 <= k < n
      ensures data[k] == Contents(g)[k]
    {
      if k >= b {
        WrappedSlot(g.tail, k);
      } else {
        UnwrappedSlot(g.tail, k);
      }
    }
  }

  /** The single copy, when the bytes do not run past the end of the array. */
  lemma StraightCopy(g: Ring, n: nat)
    requires Valid(g) && n <= g.pending && g.tail + n <= Capacity
    ensures g.payload[g.tail..g.tail + n] == Contents(g)[..n]
  {
    forall k | 0 <= k < n
      ensures g.payload[g.tail..g.tail + n][k] == Contents(g)[k]
    {
      UnwrappedSlot(g.tail, k);
    }
  }

  /** Moving the tail on by `n` removes the first `n` queued bytes. */
  lemma DrainContents(g: Ring, n: nat, w: Ring)
    requires Valid(g) && Valid(w) && n <= g.pending
    requires w.payload == g.payload && w.tail == (g.tail + n) % Capacity
    requires w.pending == g.pending - n
    ensures Contents(w) == Contents(g)[n..]
  {
    forall k | 0 <= k < w.pending
      ensures Contents(w)[k] == Contents(g)[n + k]
    {
      DrainedSlot(g.tail, n, k);
    }
  }

  /** The ring after `n` bytes have been sent and the tail has moved on to `tail'`. */
  function Drained(g: Ring, n: nat, tail': nat): (w: Ring)
    requires Valid(g) && n <= g.pending && tail' == (g.tail + n) % Capacity
    ensures Valid(w)
    ensures w == g.(tail := tail', total := g.total + n, pending := g.pending - n)
    ensures Contents(w) == Contents(g)[n..]
  {
    var w := g.(tail := tail', total := g.total + n, pending := Distance(g.head, tail'));
    PendingShrinks(g.head, g.tail, g.pending, n, tail');
    DrainContents(g, n, w);
    w
  }

  /**
   `clamma_srv_tx` for a connection with a ring: send nothing while the ring
   is empty; otherwise send the oldest `min(window, pending)` bytes, flag the
   start of the message when nothing was sent before, and either ask to
   send the rest or, once drained, flag the end of the message if the
   generation has ended.
   */
  function RingTx(g: Ring, window: nat): (r: TxResult)
    requires Valid(g)
    ensures Valid(r.ring)
    ensures r.frame.DontSend? <==> g.pending == 0
    ensures r.frame.DontSend? ==> r.ring == g && r.request == None
    ensures r.frame.Frame? ==>
              var n := Min(window, g.pending);
              && r.frame.data == Contents(g)[..n]
              && Contents(r.ring) == Contents(g)[n..]
              && r.frame.som == (g.total == 0)
              && r.ring.total == g.total + n
              && r.ring.pending == g.pending - n
              && r.ring.tail == (g.tail + n) % Capacity
              && r.ring == g.(tail := r.ring.tail, total := r.ring.total, pending := r.ring.pending)
              && (r.request.Some? <==> r.ring.pending > 0)
              && (r.request.Some? ==> r.request.value == r.ring.pending)
              && r.frame.eom == (r.ring.pending == 0 && g.eomWhenEmpty)
  {
    if g.pending == 0 then TxResult(g, DontSend, None)
    else
      var n := if window > g.pending then g.pending else window;
      var som := g.total == 0;
      var (data, tail') := Copy(g, n);
      var w := Drained(g, n, tail');
      if w.pending != 0 then TxResult(w, Frame(data, som, false), Some(w.pending))
      else TxResult(w, Frame(data, som, g.eomWhenEmpty), None)
  }

  /**
   One `clamma_srv_t`.  `inward` is the ring of a generation connection and
   absent on a description-only connection.
   */
  datatype Conn = Conn(inward: Option<Ring>, eomWhenEmpty: bool)

  predicate ConnValid(c: Conn) {
    c.inward.Some? ==> Valid(c.inward.value)
  }

  /** A transmit step of a whole connection. */
  datatype ConnTxResult = ConnTxResult(conn: Conn, frame: Frame, request: Option<nat>)

  /**
   `clamma_srv_tx`: a description-only connection sends the model
   description, cut to the window, as one whole message; a generation
   connection drains its ring.
   */
  function ConnTx(c: Conn, desc: seq<byte>, window: nat): (r: ConnTxResult)
    requires ConnValid(c)
    ensures ConnValid(r.conn)
    ensures c.inward.None? ==>
              && r.conn == c
              && r.frame == Frame(desc[..Min(|desc|, window)], true, true)
              && r.request == None
    ensures c.inward.Some? ==>
              && r.conn.inward.Some?
              && r.conn.eomWhenEmpty == c.eomWhenEmpty
              && var t := RingTx(c.inward.value, window);
                 r.conn.inward.value == t.ring && r.frame == t.frame && r.request == t.request
  {
    match c.inward
    case None =>
      ConnTxResult(c, Frame(desc[..Min(|desc|, window)], true, true), None)
    case Some(g) =>
      var t := RingTx(g, window);
      ConnTxResult(c.(inward := Some(t.ring)), t.frame, t.request)
  }

  /** Which setup call of a generation request fails, if any, in the order they are made. */
  datatype SetupFault = PipeFails | CreateFails | AdoptFails | ConstructFails | QueryFails | NoFault

  /** A side effect the transition asks of the framework, the pipe or the library. */
  datatype Action =
    | Ack
    | StartQuery(info: QueryInfo)
    | WriteDescToPipe
    | KickWorker
    | ClosePipe
    | DestroySession
    | StartTimeout
    | CancelQuery

  /** What the state callback returns to the framework. */
  datatype Reply = Proceed | DisconnectMe | AskTx(len: nat)

  datatype Transition = Transition(conn: Conn, reply: Reply, actions: seq<Action>)

  /** The path answered with the model description. */
  const DescPath: string := "/clamma/desc"

  /** The query a generation request starts: no system prompt, no prompt, no limit, fixed sampling, a time-based seed. */
  const WebQuery: QueryInfo :=
    QueryInfo(Unset, Unset, Const("0"), Const("1.0"), Const("0.9"), Unset)

  /**
   The server-transaction transition: fail when the path cannot be read,
   answer `/clamma/desc` with the description, and start a generation
   session for every other path.  A generation request attaches a fresh
   ring as soon as its stream exists; a later failure leaves it attached.
   */
  function ServerTxn(c: Conn, path: Option<string>, descLen: nat, fault: SetupFault): (t: Transition)
    ensures path.None? ==> t == Transition(c, DisconnectMe, [])
    ensures path == Some(DescPath) ==>
              t == Transition(c.(eomWhenEmpty := true), AskTx(descLen), [Ack])
    ensures path.Some? && path != Some(DescPath) ==>
              && t.conn.eomWhenEmpty == c.eomWhenEmpty
              && (t.reply == Proceed <==> fault == NoFault)
              && (t.reply != Proceed ==> t.reply == DisconnectMe)
              && (Ack in t.actions <==> fault == NoFault)
              && (StartQuery(WebQuery) in t.actions <==> fault == NoFault)
              && (ClosePipe in t.actions <==> fault != NoFault && fault != PipeFails)
              && (fault == PipeFails || fault == CreateFails ==> t.conn == c)
              && (fault != PipeFails && fault != CreateFails ==>
                    && t.conn.inward.Some?
                    && var g := t.conn.inward.value;
                       Valid(g) && g.pending == 0 && g.total == 0 && g.hasClient
                       && (g.session == Live <==> fault == NoFault))
  {
    match path
    case None => Transition(c, DisconnectMe, [])
    case Some(p) =>
      if |p| == 12 && p == DescPath then
        Transition(c.(eomWhenEmpty := true), AskTx(descLen), [Ack])
      else
        match fault
        case PipeFails => Transition(c, DisconnectMe, [])
        case CreateFails => Transition(c, DisconnectMe, [ClosePipe])
        case AdoptFails => Transition(c.(inward := Some(Fresh(NoSession))), DisconnectMe, [ClosePipe])
        case ConstructFails => Transition(c.(inward := Some(Fresh(NoSession))), DisconnectMe, [ClosePipe])
        case QueryFails =>
          Transition(c.(inward := Some(Fresh(Destroyed))), DisconnectMe, [DestroySession, ClosePipe])
        case NoFault =>
          Transition(c.(inward := Some(Fresh(Live))), Proceed,
                     [StartQuery(WebQuery), WriteDescToPipe, KickWorker, Ack])
  }

  /**
   The disconnect transition: a connection with a ring schedules the ring's
   teardown, cancels its query if it ever had a session, and detaches itself
   from the ring so that the ring asks for no more transmission.
   */
  function Disconnected(c: Conn): (t: Transition)
    ensures t.reply == Proceed
    ensures c.inward.None? ==> t == Transition(c, Proceed, [])
    ensures c.inward.Some? ==>
              && t.conn == c.(inward := Some(c.inward.value.(hasClient := false)))
              && StartTimeout in t.actions
              && (CancelQuery in t.actions <==> c.inward.value.session != NoSession)
  {
    match c.inward
    case None => Transition(c, Proceed, [])
    case Some(g) =>
      var cancel := if g.session != NoSession then [CancelQuery] else [];
      Transition(c.(inward := Some(g.(hasClient := false))), Proceed, [StartTimeout] + cancel)
  }

  /**
   A generation request whose query fails leaves the destroyed session in
   the ring, and the disconnect that follows asks to cancel a query on it.
   */
  lemma CancelAfterFailedQuery(c: Conn, p: string, descLen: nat)
    requires p != DescPath
    ensures var t := ServerTxn(c, Some(p), descLen, QueryFails);
            && DestroySession in t.actions
            && t.conn.inward.Some? && t.conn.inward.value.session == Destroyed
            && CancelQuery in Disconnected(t.conn).actions
  {
  }
}
